=== FILE: README.md ===
# Lyric pairing core, in Dafny

This project models the text-processing core of a song-lyrics translation backend (`backend/main.py`). The core has three parts:

- **`align_words`** pairs a Spanish lyric with its English translation line by line. Every line is trimmed and blank lines are dropped. Line i of one text is paired with line i of the other, up to the shorter count.
- **`extract_vocabulary`** builds a glossary of at most thirty entries.
  - The raw lines of the two texts are zipped by index, so a blank line still takes its slot.
  - Both lines are trimmed. A pair is skipped when either trimmed line is empty.
  - Each line is lower-cased and tokenised: `[a-záéíóúñ]+` for Spanish and `[a-z]+` for English, each between word boundaries.
  - Spanish token i is paired with English token i when the Spanish token is longer than two letters and English token i exists.
  - The pairs go into an insertion-ordered dict in which the first insertion of a word wins. The first thirty entries are returned.
- **The Genius clean-up** drops scraped lines that look like page metadata: the line is non-empty, starts with a digit, and contains "Contributors", "Letra de" or "Lyrics". The kept lines are joined with line breaks and the result is stripped.

Files:

- `chars.dfy` (`Chars`): the Python character classes (`isspace`, `isdigit`, `lower`, regex `\w`) over Latin-1, and the two letter classes.
- `text.dfy` (`Text`): `str.split`, `str.join`, `str.strip` and `in`. Split and join are proved to be inverses.
- `tokenize.dfy` (`Tokenize`): `re.findall(r'\b[...]+\b', ...)` as the maximal word runs that lie wholly in the letter class.
- `align.dfy` (`Align`): `align_words`.
- `vocabulary.dfy` (`VocabularyExtraction`): `extract_vocabulary`.
  - `Vocabulary` is a reference definition: a first-wins map over all offers, cut at thirty.
  - `ExtractVocabulary` is the two nested loops of `extract_vocabulary`, proved equal to `Vocabulary`.
- `genius.dfy` (`Genius`): the metadata filter, as a pure function and as the loop of `get_lyrics_from_genius`.
- `scenario.dfy` (`Scenario`): a worked example, the song "Hola mundo / Estoy feliz" against "Hello world / I am happy".

Dicts are sequences of entries with distinct keys, in insertion order. Strings are `seq<char>`.

`extract_vocabulary` does not pair the words of the aligned lines that `align_words` produces. It zips the raw lines of both texts, blank lines included. A blank line on one side therefore still consumes the line beside it, wherever it stands, so the two sides can fall out of step, and the glossary can pair words from lines that the alignment would not pair. The model follows the code (`VocabularyExtraction.BlankLineKeepsSlot`). Alignment, by contrast, drops blank lines before pairing (`Align.BlankLineReservesNoSlot`).

The worked example shows the positional pairing: `feliz` is paired with `am`, not `happy`. Token index i counts every Spanish token of the line, including the short ones that are skipped.

## Model

| member | source | states |
|---|---|---|
| Chars.IsSpace | backend/main.py:199-200 | definition of `str.isspace()` over Latin-1: tab to carriage return, U+1C to U+1F, space, U+85 and U+A0, the characters `strip()` removes |
| Chars.IsDigit | backend/main.py:99 | definition of `str.isdigit()` over Latin-1: `0` to `9` and the superscripts ², ³ and ¹ |
| Chars.IsWordChar | backend/main.py:206-207 | definition of the regex class `\w` over Latin-1: digits, `_`, letters, and ª, ², ³, µ, ¹, º, ¼ to ¾; a `\b` lies exactly between a `\w` and a non-`\w` character |
| Chars.Lower | backend/main.py:206-207 | definition of `c.lower()` for one character: A to Z and the Latin-1 capitals À to Ö and Ø to Þ move 32 code points down, every other character stays; `LowerString` states the effect on a whole line |
| Chars.LowerString | backend/main.py:206-207 | `str.lower()` keeps the length, turns each capital into the small letter 32 code points below it (Á to á, Ñ to ñ, H to h) and leaves every other character in place; so the result holds no capital, and a string without capitals is returned unchanged |
| Chars.LowerStringIdempotent | backend/main.py:206-207 | lowering an already lowered line changes nothing |
| Chars.AlphabetIsWord | backend/main.py:206-207 | every letter of either letter class is a regex word character, not whitespace and not a capital, so `\b` never falls inside a run of letters |
| Chars.LowerSpanishCapitals | backend/main.py:206 | lowering maps ÁÉÍÓÚÑ to áéíóúñ and leaves every letter of the Spanish class unchanged |
| Text.Split | backend/main.py:192-193 | `str.split(sep)` always gives at least one piece; `SplitPieces`, `JoinSplit` and `SplitJoin` state that the pieces are the separator-free runs between separators |
| Text.Join | backend/main.py:102 | definition of `sep.join(parts)`: one separator between consecutive pieces; `JoinSplit` and `SplitJoin` state that it inverts `Split` |
| Text.Strip | backend/main.py:199-200 | definition of `str.strip()`: cut the leading and the trailing whitespace; `StripSlice` states what the result is |
| Text.Contains | backend/main.py:99 | definition of the substring test `sub in s`; `ContainsOccurrence` states that it holds exactly when `sub` occurs as a slice |
| Text.IndexOfFirst | backend/main.py:192-193 | the separator search finds the first separator: none occurs before the index, and one occurs at it unless it is the end of the text |
| Text.SplitPieces | backend/main.py:192-193 | no piece of `s.split(sep)` contains the separator |
| Text.JoinSplit | backend/main.py:95-102 | `sep.join(s.split(sep)) == s`: joining the pieces gives back the text |
| Text.SplitJoin | backend/main.py:95-102 | splitting a join of one or more separator-free pieces gives back those pieces |
| Text.SplitAt | backend/main.py:192 | a text with a separator is its first piece, the separator and the rest, and its pieces are the first piece followed by the pieces of the rest |
| Text.SplitAppend | backend/main.py:192-193 | a separator between two texts splits them into the pieces of the first followed by the pieces of the second |
| Text.IndexOfAppend | backend/main.py:192 | the first separator of `a + sep + b` is the first one in `a`, or the one right after `a` |
| Text.SplitNoSeparator | backend/main.py:95 | a text without the separator is a single piece |
| Text.JoinCons | backend/main.py:102 | joining a piece in front of one or more pieces puts one separator between it and their join |
| Text.StripSlice | backend/main.py:199-200 | `strip()` returns a slice of the input with only whitespace cut from both ends; it is empty exactly when the input is all whitespace, and otherwise starts and ends with a non-space character |
| Text.StripIdempotent | backend/main.py:234-235 | stripping a stripped line changes nothing |
| Text.StripTrimmed | backend/main.py:199-200 | a non-empty string with no whitespace at either end is its own strip |
| Text.ContainsOccurrence | backend/main.py:99 | `sub in s` holds exactly when `sub` occurs as a contiguous slice of `s` |
| Tokenize.FindWords | backend/main.py:206-207 | definition of `re.findall(r'\b[...]+\b', s)`: the maximal `\w` runs of `s`, left to right, that lie wholly in the letter class; `FindWordsTokens`, `SingleRun` and `FindWordsJoin` state what it returns |
| Tokenize.LineWords | backend/main.py:206-207 | definition of the tokens of a line: `findall` applied to `line.lower()` |
| Tokenize.WordRunMaximal | backend/main.py:206-207 | a word run is maximal: all its characters are word characters and the next one is not |
| Tokenize.FindWordsTokens | backend/main.py:206-207 | every token found is a non-empty word of the letter class |
| Tokenize.FindWordsSeparator | backend/main.py:206-207 | a non-word character splits the tokens into those before it and those after it |
| Tokenize.WholeRunThenSeparator | backend/main.py:206-207 | a word run that fills a whole text and is then followed by a separator gives the text's tokens followed by the tokens after the separator |
| Tokenize.WordRunLengthAppend | backend/main.py:206-207 | a run that ends inside a text is not changed by what follows the text |
| Tokenize.WordRunLengthPrefix | backend/main.py:206-207 | a run that fills a text stops at the first non-word character after it |
| Tokenize.WordRunLengthWhole | backend/main.py:206-207 | a string made only of word characters is one run |
| Tokenize.SingleRun | backend/main.py:206-207 | a string of word characters is one token if it lies in the letter class, and gives no token otherwise |
| Tokenize.FindWordsJoin | backend/main.py:206-207 | tokenising letter-class words joined by any non-word character gives back exactly those words |
| Tokenize.LineOfWords | backend/main.py:206-207 | a line whose lower-cased form is letter-class words separated by single spaces yields exactly those words |
| Tokenize.ForeignLetterExample | backend/main.py:206 | `pingüino` gives no Spanish token, because ü is a word character outside the class |
| Tokenize.DigitInRunExample | backend/main.py:207 | `abc1` gives no English token, because the digit is part of the same word run |
| Tokenize.ApostropheExample | backend/main.py:207 | `don't` gives the two tokens `don` and `t` |
| Tokenize.CapitalExample | backend/main.py:206 | `Canción` is lowered before tokenising and gives `canción` |
| Align.StrippedNonBlank | backend/main.py:234-235 | the line filter keeps no more lines than it is given, and every kept line is trimmed and non-empty |
| Align.NonBlankLines | backend/main.py:234-235 | every line of a text's line list is trimmed and non-empty |
| Align.PairLines | backend/main.py:239-247 | when both line lists hold only non-empty lines, pair i is (Spanish line i, English line i) for every i below the shorter length, and there are no other pairs |
| Align.AlignWords | backend/main.py:228-252 | the number of pairs is the smaller of the two non-blank line counts; pair i is the i-th trimmed non-blank Spanish line with the i-th trimmed non-blank English line; both sides of every pair are trimmed and non-empty |
| Align.StrippedNonBlankAppend | backend/main.py:234-235 | filtering two runs of lines one after the other gives the filtered first run followed by the filtered second: kept lines keep their input order |
| Align.StrippedNonBlankMembership | backend/main.py:234 | a line is kept exactly when it is non-empty and some raw line trims to it |
| Align.NonBlankLinesMembership | backend/main.py:234-235 | a text's lines are exactly the non-empty trimmed forms of its raw lines |
| Align.NonBlankLinesAppend | backend/main.py:234-235 | the lines of two texts joined by a line break are the lines of the first followed by the lines of the second |
| Align.StrippedNonBlankAllBlank | backend/main.py:234 | whitespace-only lines are all dropped |
| Align.SplitAllSpace | backend/main.py:234 | every raw line of a whitespace-only text is whitespace-only |
| Align.BlankTextAlignsNothing | backend/main.py:239-249 | when either text is whitespace only, including empty, there are no pairs |
| Align.BlankLineHasNoLines | backend/main.py:234 | a single blank line contributes no line |
| Align.BlankLineDropped | backend/main.py:234 | inserting a blank line between two lines of a text leaves its line list unchanged |
| Align.BlankLineReservesNoSlot | backend/main.py:234-247 | inserting a blank Spanish line changes no pair: blank lines take no slot in the alignment |
| Align.SurplusLinesDropped | backend/main.py:239-241 | Spanish lines beyond the English line count never change the pairs |
| VocabularyExtraction.Insert | backend/main.py:212-214 | `if w not in d: d[w] = v` adds the key and nothing else: a new key is appended with exactly the offered value, existing entries stay in place, and keys stay distinct |
| VocabularyExtraction.FirstWins | backend/main.py:210-214 | the map built from a sequence of offers has distinct keys and holds only offered items |
| VocabularyExtraction.FirstIndex | backend/main.py:212 | the first position at which a key is offered: it holds the key and no earlier position does |
| VocabularyExtraction.FirstWinsSnoc | backend/main.py:212-214 | one more offer updates the map by a first-wins insertion |
| VocabularyExtraction.HasKeySnoc | backend/main.py:212 | the keys of a sequence with one more offer are the old keys plus the new offer's key |
| VocabularyExtraction.FirstWinsKeys | backend/main.py:210-214 | the keys of the map are exactly the keys that were offered |
| VocabularyExtraction.FirstIndexAppend | backend/main.py:212 | a key offered earlier keeps its first position when another offer follows |
| VocabularyExtraction.FirstIndexOfNewKey | backend/main.py:212-214 | a key offered for the first time by the last offer has that offer as its first position |
| VocabularyExtraction.FirstWinsIsFirstOffer | backend/main.py:212-214 | each entry of the map is the first offer of its key, so later offers never overwrite it |
| VocabularyExtraction.FirstWinsOrder | backend/main.py:217-219 | the entries are ordered by the position of their keys' first offers (dict insertion order) |
| VocabularyExtraction.FirstWinsExtends | backend/main.py:210-214 | more offers never overwrite or reorder entries: the old map is a prefix of the new one |
| VocabularyExtraction.FirstWinsDistinct | backend/main.py:210-214 | offers with pairwise different keys all enter the map, in offer order |
| VocabularyExtraction.TokenOffer | backend/main.py:210-214 | Spanish token i makes an offer exactly when it is longer than two letters and English token i exists; the offer is the single pair (Spanish token i, English token i) |
| VocabularyExtraction.InsertTokenOffer | backend/main.py:210-214 | one step of the inner loop inserts the pair at index i when the guards hold and leaves the map unchanged otherwise |
| VocabularyExtraction.ZipPositions | backend/main.py:198 | `zip` yields as many positions as the shorter line list |
| VocabularyExtraction.ZipPositionsIndex | backend/main.py:198-207 | position j reads raw line j of each text |
| VocabularyExtraction.ZipPositionsAppend | backend/main.py:198 | zipping equally long line lists and then their continuations is the zip of the joined lists |
| VocabularyExtraction.ZipPositionsSurplus | backend/main.py:198 | Spanish lines beyond the English line count are never read |
| VocabularyExtraction.OffersAppend | backend/main.py:198-214 | the offers of two runs of positions are the first run's offers followed by the second's |
| VocabularyExtraction.OffersPrefixStep | backend/main.py:198-214 | one more position adds exactly that position's offers |
| VocabularyExtraction.BlankLineIsSkipped | backend/main.py:202-203 | a position with a blank line is skipped, whatever line stands beside it |
| VocabularyExtraction.Vocabulary | backend/main.py:216-220 | the glossary is the prefix of the first-wins map of length min(30, map size); it has at most thirty entries and distinct keys |
| VocabularyExtraction.InsertLineWords | backend/main.py:210-214 | the inner loop inserts exactly the line's offers into the map, and existing entries are kept |
| VocabularyExtraction.InsertLinePair | backend/main.py:199-214 | the outer loop body adds exactly the offers of the position its two raw lines form |
| VocabularyExtraction.ExtractVocabulary | backend/main.py:185-226 | the two nested loops of `extract_vocabulary` and its `[:30]` compute the reference glossary `Vocabulary` |
| VocabularyExtraction.OfferedAtPosition | backend/main.py:199-214 | a line pair offers an item at token index i exactly when its position does |
| VocabularyExtraction.LineOffersMembership | backend/main.py:210-214 | an item is offered by the first n tokens of a line exactly when some index i < n has a Spanish token longer than two letters, an English token, and the item pairs the two |
| VocabularyExtraction.PositionOffersMembership | backend/main.py:202-214 | an item is offered by a position exactly when it is the pair at some token index there |
| VocabularyExtraction.OffersMembership | backend/main.py:198-214 | an item is offered by a run of positions exactly when one of them offers it |
| VocabularyExtraction.AllOffersMembership | backend/main.py:192-214 | an item is offered exactly when some raw line pair j below both line counts has two non-empty trimmed lines whose tokens pair the item at some index i |
| VocabularyExtraction.OfferedLinePair | backend/main.py:192-214 | every offer comes from a raw line pair j and a token index i that pair it |
| VocabularyExtraction.LinePairOffers | backend/main.py:192-214 | every pair some raw line pair makes at token index i is offered |
| VocabularyExtraction.ReadPosition | backend/main.py:199-207 | definition of what one iteration of the outer loop reads: skipped when either stripped line is empty, otherwise the Spanish and the English tokens of the two stripped lines |
| VocabularyExtraction.LineOffers | backend/main.py:210-214 | definition of the pairings the inner loop offers for its first n Spanish tokens, in token order; `LineOffersMembership` states which they are |
| VocabularyExtraction.AllOffers | backend/main.py:192-214 | definition of every pairing offered, in the order the loops reach them; `AllOffersMembership` states which pairings they are |
| VocabularyExtraction.ReadPositionWellFormed | backend/main.py:206-207 | the tokens of a non-skipped position are non-empty words of their letter classes |
| VocabularyExtraction.OffersShape | backend/main.py:206-214 | when every position is well formed, each offer is a Spanish key word paired with a non-empty `a-z` word |
| VocabularyExtraction.VocabularyShape | backend/main.py:206-220 | every glossary key is longer than two letters and made of a-z and áéíóúñ, and its value is a non-empty a-z word |
| VocabularyExtraction.VocabularyEntryOrigin | backend/main.py:192-220 | every glossary entry comes from some line pair j below both line counts and token index i, and it is the first offer of its Spanish word |
| VocabularyExtraction.OfferedWordIsKey | backend/main.py:212-220 | every offered Spanish word is a key of the map, and of the glossary when the map has at most thirty entries |
| VocabularyExtraction.AppendedLinesNeverOverwrite | backend/main.py:198-220 | lines appended to both texts, whatever their line counts, never overwrite or reorder entries: the old glossary is a prefix of the new one |
| VocabularyExtraction.ZipPositionsPrefix | backend/main.py:198 | zipping longer line lists extends the zip of the shorter ones, whatever the lengths |
| VocabularyExtraction.OffersPrefix | backend/main.py:198-214 | more positions only add offers after the old ones |
| VocabularyExtraction.OffersPrefixVocabulary | backend/main.py:212-220 | when the offers of one pair of texts begin with the offers of another, the first-wins glossary, cut at thirty, begins with the other glossary |
| VocabularyExtraction.SurplusLinesIgnored | backend/main.py:198 | Spanish lines beyond the English line count do not change the glossary |
| VocabularyExtraction.BlankLineKeepsSlot | backend/main.py:198-203 | a blank Spanish line after any number of lines still takes its slot: it consumes the English line beside it, which contributes nothing, and the glossary is that of the two texts without both lines |
| VocabularyExtraction.LeadingBlankLineKeepsSlot | backend/main.py:198-203 | a blank first Spanish line consumes the first English line, and the glossary is that of the texts without both lines |
| VocabularyExtraction.MiddleBlankOffers | backend/main.py:198-214 | on line lists, a blank Spanish line after equally many lines on both sides removes its position and the English line beside it from the offers |
| VocabularyExtraction.SkippedFront | backend/main.py:198-203 | a blank Spanish line at the head of the zipped lines offers nothing, so the offers are those of the remaining lines |
| Genius.IsMetadataLine | backend/main.py:99 | definition of a metadata line: non-empty, first character a digit, and containing "Contributors", "Letra de" or "Lyrics" |
| Genius.CleanLyrics | backend/main.py:95-102 | definition of the clean-up: split into lines, drop metadata lines, join with line breaks, strip; `CleanGeniusLyrics` is proved to compute it |
| Genius.KeepLines | backend/main.py:95-100 | the filter keeps no more lines than it is given |
| Genius.CleanGeniusLyrics | backend/main.py:95-102 | the loop of `get_lyrics_from_genius`, its join and its strip compute the pure clean-up `CleanLyrics` |
| Genius.KeepLinesSnoc | backend/main.py:97-100 | one loop step appends the next line exactly when it is not a metadata line |
| Genius.KeepLinesMembership | backend/main.py:97-100 | a line is kept exactly when it is an input line and not a metadata line |
| Genius.KeepLinesAppend | backend/main.py:97-100 | filtering two runs of lines gives the kept lines of the first followed by those of the second, so kept lines keep their order |
| Genius.KeepLinesNoMetadata | backend/main.py:97-100 | lines with no metadata line among them are all kept |
| Genius.KeepLinesIdempotent | backend/main.py:97-100 | filtering the kept lines again changes nothing |
| Genius.CleanLyricsNoMetadata | backend/main.py:95-102 | lyrics without a metadata line are only stripped |
| Genius.JoinedKeptLines | backend/main.py:95-102 | when some line is kept, the cleaned text before the strip splits back into exactly the kept lines |
| Genius.HeaderLineExample | backend/main.py:99 | the header line "5 ContributorsLa Vuelta Lyrics" is a metadata line and is dropped |
| Genius.NoLeadingDigitKept | backend/main.py:99 | a non-empty line that does not start with a digit is kept, whatever markers it contains |
| Scenario.SplitTwoLines | backend/main.py:192-193 | a text of two lines joined by a line break splits into those two lines |
| Scenario.HolaMundo | backend/main.py:199-206 | "Hola mundo" is trimmed and gives the Spanish tokens `hola`, `mundo` |
| Scenario.HelloWorld | backend/main.py:200-207 | "Hello world" is trimmed and gives the English tokens `hello`, `world` |
| Scenario.EstoyFeliz | backend/main.py:199-206 | "Estoy feliz" is trimmed and gives `estoy`, `feliz` |
| Scenario.IAmHappy | backend/main.py:200-207 | "I am happy" is trimmed and gives `i`, `am`, `happy` |
| Scenario.ZipTwoLines | backend/main.py:192-198 | two two-line texts give the two positions of their line pairs |
| Scenario.ExamplePositions | backend/main.py:192-207 | the example's positions are the token lists of its two line pairs |
| Scenario.TwoTokenOffers | backend/main.py:210-214 | two Spanish tokens longer than two letters with at least two English tokens offer both pairs, in order |
| Scenario.TwoPositionOffers | backend/main.py:198-214 | two positions offer the first one's pairs, then the second one's |
| Scenario.ExampleKeysDistinct | backend/main.py:212 | the four example words are pairwise different keys |
| Scenario.ExampleVocabulary | backend/main.py:185-226 | the example's glossary is hola→hello, mundo→world, estoy→i, feliz→am: `feliz` meets `am`, not `happy` |
| Scenario.TwoLineText | backend/main.py:234-235 | two trimmed non-blank lines joined by a line break are that text's lines |
| Scenario.ExampleSpanishLines | backend/main.py:234 | the example's Spanish lines are "Hola mundo" and "Estoy feliz" |
| Scenario.ExampleEnglishLines | backend/main.py:235 | the example's English lines are "Hello world" and "I am happy" |
| Scenario.ExampleAlignment | backend/main.py:228-252 | the example aligns into the two line pairs, in order |

## Left out

- HTTP endpoints, FastAPI and CORS setup, the pydantic request and response models, and API keys read from the environment. These are plumbing. `WordAlignment` and `VocabularyItem` are modelled as plain pairs.
- The outbound calls to Genius, DeepL, Google Translate and Spotify, and the BeautifulSoup HTML parsing. These are network I/O and foreign libraries. The Genius clean-up starts from the joined lyric text that the scraper produces.
- The `try/except … return []` wrappers and the `print` logging. The modelled operations are total and raise nothing, so the error branches cannot be reached.
- Unicode outside Latin-1.
  - `isspace`, `isdigit`, `lower()` and regex `\w` are modelled exactly for U+0000 to U+00FF.
  - Every other character is treated as non-space, non-digit, non-word and unchanged by lowering.
  - So the model does not cover Unicode whitespace such as U+2028, other scripts' letters and digits, or special case mappings such as U+0130.
- Language detection and title or diacritic normalisation. They do not appear in `backend/main.py`, so they are not part of this model.
- The React frontend (`frontend/src/App.jsx`): UI state and fetch calls, with no text-processing logic.
- VocabularyExtraction.ExtractVocabulary: its contract is equality with the reference function `Vocabulary`. The glossary's properties are stated as lemmas about `Vocabulary`, not repeated on the method.
- Genius.KeepLines: its contract states only the length bound. That no kept line is a metadata line, and which lines are kept, are stated by `Genius.KeepLinesMembership`.

=== FILE: align.dfy ===
/**
  Line alignment (`align_words`): the non-blank lines of the Spanish text
  and of its English translation, each trimmed, paired by position. A
  blank line reserves no slot on either side, and the surplus lines of
  the longer side are dropped.
 */
module Align {
  import opened Chars
  import opened Text

  /** One aligned pair: a Spanish line and the English line at the same
      position. */
  datatype WordAlignment = WordAlignment(spanish: string, english: string)

  predicate IsTrimmedLine(line: string) {
    line != [] && Strip(line) == line
  }

  /** `[line.strip() for line in lines if line.strip()]` */
  function StrippedNonBlank(lines: seq<string>): (r: seq<string>)
    ensures |r| <= |lines|
    ensures forall k :: 0 <= k < |r| ==> IsTrimmedLine(r[k])
    decreases |lines|
  {
    if lines == [] then []
    else
      var line := Strip(lines[0]);
      StripIdempotent(lines[0]);
      (if line != [] then [line] else []) + StrippedNonBlank(lines[1..])
  }

  /** The trimmed non-blank lines of a text, in order. */
  function NonBlankLines(text: string): (r: seq<string>)
    ensures forall k :: 0 <= k < |r| ==> IsTrimmedLine(r[k])
  {
    StrippedNonBlank(Split(text, '\n'))
  }

  /** The `for i in range(min_length)` loop: pairs position by position up
      to the shorter list, keeping a pair only when both lines are
      non-empty. */
  function PairLines(spanish: seq<string>, english: seq<string>): (pairs: seq<WordAlignment>)
    ensures |pairs| <= Min(|spanish|, |english|)
    ensures (forall k :: 0 <= k < |spanish| ==> spanish[k] != [])
            && (forall k :: 0 <= k < |english| ==> english[k] != [])
            ==> && |pairs| == Min(|spanish|, |english|)
                && forall i :: 0 <= i < |pairs| ==> pairs[i] == WordAlignment(spanish[i], english[i])
    decreases |spanish|
  {
    if spanish == [] || english == [] then []
    else
      var rest := PairLines(spanish[1..], english[1..]);
      if spanish[0] != [] && english[0] != [] then [WordAlignment(spanish[0], english[0])] + rest
      else rest
  }

  /** `align_words(spanish_text, english_text)`: pair i is the i-th
      non-blank trimmed Spanish line with the i-th non-blank trimmed
      English line, for every i below the smaller of the two counts. */
  function AlignWords(spanishText: string, englishText: string): (pairs: seq<WordAlignment>)
    ensures |pairs| == Min(|NonBlankLines(spanishText)|, |NonBlankLines(englishText)|)
    ensures forall i :: 0 <= i < |pairs| ==>
              pairs[i] == WordAlignment(NonBlankLines(spanishText)[i], NonBlankLines(englishText)[i])
    ensures forall i :: 0 <= i < |pairs| ==>
              IsTrimmedLine(pairs[i].spanish) && IsTrimmedLine(pairs[i].english)
  {
    var spanishLines := NonBlankLines(spanishText);
    var englishLines := NonBlankLines(englishText);
    PairLines(spanishLines, englishLines)
  }

  /** Filtering distributes over concatenation, so the kept lines stay in
      input order. */
  lemma {:induction false} StrippedNonBlankAppend(xs: seq<string>, ys: seq<string>)
    ensures StrippedNonBlank(xs + ys) == StrippedNonBlank(xs) + StrippedNonBlank(ys)
    decreases |xs|
  {
    if xs != [] {
      assert (xs + ys)[0] == xs[0];
      assert (xs + ys)[1..] == xs[1..] + ys;
      StrippedNonBlankAppend(xs[1..], ys);
    } else {
      assert xs + ys == ys;
    }
  }

  /** A line is kept exactly when some raw line trims to it and it is not
      blank. */
  lemma {:induction false} StrippedNonBlankMembership(lines: seq<string>, line: string)
    ensures line in StrippedNonBlank(lines) <==>
              line != [] && exists raw :: raw in lines && Strip(raw) == line
    decreases |lines|
  {
    if lines != [] {
      StrippedNonBlankMembership(lines[1..], line);
      assert lines == [lines[0]] + lines[1..];
      if line != [] && Strip(lines[0]) != line {
        if exists raw :: raw in lines && Strip(raw) == line {
          var raw :| raw in lines && Strip(raw) == line;
          assert raw in lines[1..];
        }
      }
    }
  }

  /** The non-blank lines of a text: every one of them is a trimmed,
      non-blank raw line, and every non-blank raw line contributes its
      trimmed form. */
  lemma NonBlankLinesMembership(text: string, line: string)
    ensures line in NonBlankLines(text) <==>
              line != [] && exists raw :: raw in Split(text, '\n') && Strip(raw) == line
  {
    StrippedNonBlankMembership(Split(text, '\n'), line);
  }

  /** The lines of two texts joined by a line break are the lines of the
      first followed by the lines of the second. */
  lemma NonBlankLinesAppend(a: string, b: string)
    ensures NonBlankLines(a + "\n" + b) == NonBlankLines(a) + NonBlankLines(b)
  {
    SplitAppend(a, b, '\n');
    StrippedNonBlankAppend(Split(a, '\n'), Split(b, '\n'));
  }

  /** A text made of whitespace only has no non-blank line. */
  lemma {:induction false} StrippedNonBlankAllBlank(lines: seq<string>)
    requires forall line :: line in lines ==> AllSpace(line)
    ensures StrippedNonBlank(lines) == []
    decreases |lines|
  {
    if lines != [] {
      StripSlice(lines[0]);
      StrippedNonBlankAllBlank(lines[1..]);
    }
  }

  lemma {:induction false} SplitAllSpace(text: string)
    requires AllSpace(text)
    ensures forall line :: line in Split(text, '\n') ==> AllSpace(line)
    decreases |text|
  {
    var i := IndexOf(text, '\n');
    if i < |text| {
      SplitAt(text, '\n');
      SplitAllSpace(text[i + 1..]);
    }
  }

  /** With no non-blank line on either side (the empty text included),
      nothing is aligned. */
  lemma BlankTextAlignsNothing(spanishText: string, englishText: string)
    requires AllSpace(spanishText) || AllSpace(englishText)
    ensures AlignWords(spanishText, englishText) == []
  {
    if AllSpace(spanishText) {
      SplitAllSpace(spanishText);
      StrippedNonBlankAllBlank(Split(spanishText, '\n'));
    } else {
      SplitAllSpace(englishText);
      StrippedNonBlankAllBlank(Split(englishText, '\n'));
    }
  }

  /** A single blank line contributes no line. */
  lemma BlankLineHasNoLines(blank: string)
    requires '\n' !in blank && AllSpace(blank)
    ensures NonBlankLines(blank) == []
  {
    SplitNoSeparator(blank, '\n');
    StrippedNonBlankAllBlank([blank]);
  }

  /** A blank line inserted into the Spanish text changes no pair: blank
      lines reserve no slot. */
  lemma BlankLineReservesNoSlot(before: string, blank: string, after: string, englishText: string)
    requires '\n' !in blank && AllSpace(blank)
    ensures AlignWords(before + "\n" + blank + "\n" + after, englishText)
            == AlignWords(before + "\n" + after, englishText)
  {
    BlankLineDropped(before, blank, after);
  }

  lemma BlankLineDropped(before: string, blank: string, after: string)
    requires '\n' !in blank && AllSpace(blank)
    ensures NonBlankLines(before + "\n" + blank + "\n" + after) == NonBlankLines(before + "\n" + after)
  {
    var tail := blank + "\n" + after;
    assert before + "\n" + blank + "\n" + after == before + "\n" + tail;
    NonBlankLinesAppend(blank, after);
    BlankLineHasNoLines(blank);
    assert NonBlankLines(tail) == NonBlankLines(after);
    NonBlankLinesAppend(before, tail);
    NonBlankLinesAppend(before, after);
  }

  /** Surplus Spanish lines beyond the English line count are dropped. */
  lemma SurplusLinesDropped(spanishText: string, extra: string, englishText: string)
    requires |NonBlankLines(spanishText)| >= |NonBlankLines(englishText)|
    ensures AlignWords(spanishText + "\n" + extra, englishText) == AlignWords(spanishText, englishText)
  {
    NonBlankLinesAppend(spanishText, extra);
    var longer := AlignWords(spanishText + "\n" + extra, englishText);
    var shorter := AlignWords(spanishText, englishText);
    assert |longer| == |shorter|;
    forall i | 0 <= i < |longer| ensures longer[i] == shorter[i] {
      assert NonBlankLines(spanishText + "\n" + extra)[i] == NonBlankLines(spanishText)[i];
    }
  }
}

=== FILE: chars.dfy ===
/**
  Character classes used by the lyric-pairing code, as Python 3 defines them.

  The classes are given exactly for the Latin-1 range (U+0000 .. U+00FF),
  which holds ASCII, the Spanish accented letters and their capitals, and
  the ASCII whitespace and digits. Every character above U+00FF is treated
  as non-space, non-digit, not a word character and unchanged by lowering.
 */
module Chars {

  /** `c.isspace()`: tab to carriage return, the four separators U+001C to
      U+001F, space, NEXT LINE and NO-BREAK SPACE. */
  predicate IsSpace(c: char) {
    || ('\t' <= c <= '\r')
    || ('\U{1C}' <= c <= ' ')
    || c == '\U{85}'
    || c == '\U{A0}'
  }

  /** `c.isdigit()`: the ASCII digits and the superscripts one, two, three. */
  predicate IsDigit(c: char) {
    || ('0' <= c <= '9')
    || c == '\U{B2}' || c == '\U{B3}' || c == '\U{B9}'
  }

  /** Capital letters that `str.lower()` changes: A-Z and the Latin-1
      capitals except the multiplication sign. */
  predicate IsUpper(c: char) {
    || ('A' <= c <= 'Z')
    || ('\U{C0}' <= c <= '\U{D6}')
    || ('\U{D8}' <= c <= '\U{DE}')
  }

  /** A regex word character (`\w` on a `str` pattern): `c.isalnum()` or
      the underscore. */
  predicate IsWordChar(c: char) {
    || ('0' <= c <= '9')
    || ('A' <= c <= 'Z')
    || c == '_'
    || ('a' <= c <= 'z')
    || c == '\U{AA}' || c == '\U{B2}' || c == '\U{B3}' || c == '\U{B5}'
    || c == '\U{B9}' || c == '\U{BA}'
    || ('\U{BC}' <= c <= '\U{BE}')
    || ('\U{C0}' <= c <= '\U{D6}')
    || ('\U{D8}' <= c <= '\U{F6}')
    || ('\U{F8}' <= c <= '\U{FF}')
  }

  /** `c.lower()` for one character: each capital moves 32 code points down
      to its small letter; every other character is left as it is. */
  function Lower(c: char): (d: char)
  {
    if IsUpper(c) then (c as int + 32) as char else c
  }

  /** `s.lower()`, character by character (lowering is length-preserving on
      the modelled alphabet). Every capital becomes the small letter 32 code
      points below it, every other character stays in place, so the result
      holds no capital and a string without capitals is left as it is. */
  function LowerString(s: string): (r: string)
    ensures |r| == |s|
    ensures forall k :: 0 <= k < |s| && IsUpper(s[k]) ==> r[k] as int == s[k] as int + 32
    ensures forall k :: 0 <= k < |s| && !IsUpper(s[k]) ==> r[k] == s[k]
    ensures forall k :: 0 <= k < |r| ==> !IsUpper(r[k])
    ensures (forall k :: 0 <= k < |s| ==> !IsUpper(s[k])) ==> r == s
  {
    seq(|s|, k requires 0 <= k < |s| => Lower(s[k]))
  }

  /** Lowering twice is lowering once. */
  lemma LowerStringIdempotent(s: string)
    ensures LowerString(LowerString(s)) == LowerString(s)
  {
  }

  /** The two letter classes of the tokenising regular expressions. */
  datatype Alphabet =
    | Spanish  // [a-záéíóúñ]
    | English  // [a-z]

  predicate InAlphabet(a: Alphabet, c: char) {
    match a
    case Spanish =>
      || ('a' <= c <= 'z')
      || c == '\U{E1}' || c == '\U{E9}' || c == '\U{ED}'
      || c == '\U{F3}' || c == '\U{FA}' || c == '\U{F1}'
    case English => 'a' <= c <= 'z'
  }

  /** Both letter classes are word characters, so a letter never sits on a
      regex word boundary with its neighbour letter. */
  lemma AlphabetIsWord(a: Alphabet, c: char)
    requires InAlphabet(a, c)
    ensures IsWordChar(c)
    ensures !IsSpace(c) && !IsUpper(c)
  {
  }

  /** Lowering keeps every lower-case letter of both classes and turns the
      Spanish capitals into their small letters. */
  lemma LowerSpanishCapitals()
    ensures Lower('\U{C1}') == '\U{E1}' && Lower('\U{C9}') == '\U{E9}'
    ensures Lower('\U{CD}') == '\U{ED}' && Lower('\U{D3}') == '\U{F3}'
    ensures Lower('\U{DA}') == '\U{FA}' && Lower('\U{D1}') == '\U{F1}'
    ensures forall c :: InAlphabet(Spanish, c) ==> Lower(c) == c
  {
  }
}

=== FILE: genius.dfy ===
/**
  The clean-up of lyrics scraped from a Genius page: every line that looks
  like page metadata ("12 ContributorsLa Vuelta Lyrics") is dropped, the
  other lines are joined back with line breaks, and the result is stripped.
  A metadata line is non-empty, starts with a digit and contains one of the
  markers "Contributors", "Letra de" or "Lyrics".
 */
module Genius {
  import opened Chars
  import opened Text

  const ContributorsMarker: string := "Contributors"
  const LetraDeMarker: string := "Letra de"
  const LyricsMarker: string := "Lyrics"

  /** The test of the clean-up loop, negated: the line is dropped. */
  predicate IsMetadataLine(line: string) {
    && line != []
    && IsDigit(line[0])
    && (Contains(line, ContributorsMarker) || Contains(line, LetraDeMarker) || Contains(line, LyricsMarker))
  }

  /** The lines the loop appends to `cleaned_lines`, in input order. */
  function KeepLines(lines: seq<string>): (kept: seq<string>)
    ensures |kept| <= |lines|
    decreases |lines|
  {
    if lines == [] then []
    else (if IsMetadataLine(lines[0]) then [] else [lines[0]]) + KeepLines(lines[1..])
  }

  /** The cleaned lyrics: the kept lines joined by line breaks, stripped. */
  function CleanLyrics(lyrics: string): string {
    Strip(Join(KeepLines(Split(lyrics, '\n')), '\n'))
  }

  /** The clean-up as the loop of `get_lyrics_from_genius` writes it: one
      pass over the lines with an accumulator, then the join and the strip. */
  method CleanGeniusLyrics(lyrics: string) returns (cleaned: string)
    ensures cleaned == CleanLyrics(lyrics)
  {
    var lines := Split(lyrics, '\n');
    var cleanedLines: seq<string> := [];
    var i := 0;
    while i < |lines|
      invariant i <= |lines|
      invariant cleanedLines == KeepLines(lines[..i])
    {
      var line := lines[i];
      KeepLinesSnoc(lines, i);
      if !IsMetadataLine(line) {
        cleanedLines := cleanedLines + [line];
      }
      i := i + 1;
    }
    assert lines[..i] == lines;
    cleaned := Strip(Join(cleanedLines, '\n'));
  }

  /** One step of the loop: the next line joins the kept lines unless it
      is a metadata line. */
  lemma KeepLinesSnoc(lines: seq<string>, i: nat)
    requires i < |lines|
    ensures KeepLines(lines[..i + 1]) == KeepLines(lines[..i]) + if IsMetadataLine(lines[i]) then [] else [lines[i]]
  {
    assert lines[..i + 1] == lines[..i] + [lines[i]];
    KeepLinesAppend(lines[..i], [lines[i]]);
  }

  /** A line is kept exactly when it is one of the input lines and is not a
      metadata line. */
  lemma {:induction false} KeepLinesMembership(lines: seq<string>, line: string)
    ensures line in KeepLines(lines) <==> line in lines && !IsMetadataLine(line)
    decreases |lines|
  {
    if lines != [] {
      KeepLinesMembership(lines[1..], line);
      assert lines == [lines[0]] + lines[1..];
    }
  }

  /** Filtering distributes over concatenation: the kept lines keep their
      relative order. */
  lemma {:induction false} KeepLinesAppend(xs: seq<string>, ys: seq<string>)
    ensures KeepLines(xs + ys) == KeepLines(xs) + KeepLines(ys)
    decreases |xs|
  {
    if xs == [] {
      assert xs + ys == ys;
    } else {
      assert (xs + ys)[0] == xs[0];
      assert (xs + ys)[1..] == xs[1..] + ys;
      KeepLinesAppend(xs[1..], ys);
    }
  }

  /** Lyrics without a metadata line keep every line. */
  lemma {:induction false} KeepLinesNoMetadata(lines: seq<string>)
    requires forall k :: 0 <= k < |lines| ==> !IsMetadataLine(lines[k])
    ensures KeepLines(lines) == lines
    decreases |lines|
  {
    if lines != [] {
      KeepLinesNoMetadata(lines[1..]);
      assert [lines[0]] + lines[1..] == lines;
    }
  }

  /** A second clean-up pass over the kept lines changes nothing. */
  lemma KeepLinesIdempotent(lines: seq<string>)
    ensures KeepLines(KeepLines(lines)) == KeepLines(lines)
  {
    var kept := KeepLines(lines);
    forall k | 0 <= k < |kept| ensures !IsMetadataLine(kept[k]) {
      KeepLinesMembership(lines, kept[k]);
    }
    KeepLinesNoMetadata(kept);
  }

  /** Lyrics without a metadata line are only stripped. */
  lemma CleanLyricsNoMetadata(lyrics: string)
    requires forall k :: 0 <= k < |Split(lyrics, '\n')| ==> !IsMetadataLine(Split(lyrics, '\n')[k])
    ensures CleanLyrics(lyrics) == Strip(lyrics)
  {
    KeepLinesNoMetadata(Split(lyrics, '\n'));
    JoinSplit(lyrics, '\n');
  }

  /** The text joined from the kept lines splits back into exactly those
      lines, none of them a metadata line. */
  lemma JoinedKeptLines(lyrics: string)
    requires KeepLines(Split(lyrics, '\n')) != []
    ensures Split(Join(KeepLines(Split(lyrics, '\n')), '\n'), '\n') == KeepLines(Split(lyrics, '\n'))
  {
    var lines := Split(lyrics, '\n');
    var kept := KeepLines(lines);
    SplitPieces(lyrics, '\n');
    forall k | 0 <= k < |kept| ensures '\n' !in kept[k] {
      KeepLinesMembership(lines, kept[k]);
    }
    SplitJoin(kept, '\n');
  }

  /** A Genius header line ("5 Contributors...") is dropped. */
  lemma HeaderLineExample(line: string)
    requires line == "5 ContributorsLa Vuelta Lyrics"
    ensures IsMetadataLine(line)
    ensures KeepLines([line]) == []
  {
    assert line[2..][..|ContributorsMarker|] == ContributorsMarker;
    ContainsOccurrence(line, ContributorsMarker);
  }

  /** A marker alone is not enough: the line must start with a digit. */
  lemma NoLeadingDigitKept(line: string)
    requires line != [] && !IsDigit(line[0])
    ensures KeepLines([line]) == [line]
  {
  }
}

=== FILE: scenario.dfy ===
/**
  A worked example of both operations on a two-line song and its
  translation: "Hola mundo" / "Estoy feliz" against "Hello world" /
  "I am happy". Alignment pairs the two lines; the glossary pairs words
  by their index in the line, so `feliz` meets `am`, not `happy`.

  The example lemmas take their literals as parameters fixed by a
  `requires` (`requires line == "Hola mundo"`): that keeps the verifier from
  unrolling the recursive definitions over the literal text, and the
  steps go through general lemmas instead.
 */
module Scenario {
  import opened Chars
  import opened Text
  import opened Tokenize
  import opened Align
  import opened VocabularyExtraction

  /** A two-line text splits into its two lines. */
  lemma SplitTwoLines(first: string, second: string)
    requires '\n' !in first && '\n' !in second
    ensures Split(first + "\n" + second, '\n') == [first, second]
  {
    SplitAppend(first, second, '\n');
    SplitNoSeparator(first, '\n');
    SplitNoSeparator(second, '\n');
  }

  lemma HolaMundo(line: string)
    requires line == "Hola mundo"
    ensures Strip(line) == line && LineWords(Spanish, line) == ["hola", "mundo"]
  {
    StripTrimmed(line);
    assert LowerString(line) == Join(["hola", "mundo"], ' ');
    LineOfWords(Spanish, line, ["hola", "mundo"]);
  }

  lemma HelloWorld(line: string)
    requires line == "Hello world"
    ensures Strip(line) == line && LineWords(English, line) == ["hello", "world"]
  {
    StripTrimmed(line);
    assert LowerString(line) == Join(["hello", "world"], ' ');
    LineOfWords(English, line, ["hello", "world"]);
  }

  lemma EstoyFeliz(line: string)
    requires line == "Estoy feliz"
    ensures Strip(line) == line && LineWords(Spanish, line) == ["estoy", "feliz"]
  {
    StripTrimmed(line);
    assert LowerString(line) == Join(["estoy", "feliz"], ' ');
    LineOfWords(Spanish, line, ["estoy", "feliz"]);
  }

  lemma IAmHappy(line: string)
    requires line == "I am happy"
    ensures Strip(line) == line && LineWords(English, line) == ["i", "am", "happy"]
  {
    StripTrimmed(line);
    assert LowerString(line) == Join(["i", "am", "happy"], ' ');
    LineOfWords(English, line, ["i", "am", "happy"]);
  }

  /** The positions of two two-line texts are the two line pairs. */
  lemma ZipTwoLines(s1: string, s2: string, e1: string, e2: string)
    requires '\n' !in s1 && '\n' !in s2 && '\n' !in e1 && '\n' !in e2
    ensures ZipPositions(Split(s1 + "\n" + s2, '\n'), Split(e1 + "\n" + e2, '\n'))
            == [ReadPosition(s1, e1), ReadPosition(s2, e2)]
  {
    SplitTwoLines(s1, s2);
    SplitTwoLines(e1, e2);
    ZipPositionsIndex([s1, s2], [e1, e2], 0);
    ZipPositionsIndex([s1, s2], [e1, e2], 1);
  }

  /** Both positions of the example: two non-blank line pairs. */
  lemma ExamplePositions(sp: string, en: string)
    requires sp == "Hola mundo\nEstoy feliz" && en == "Hello world\nI am happy"
    ensures ZipPositions(Split(sp, '\n'), Split(en, '\n'))
            == [Tokens(["hola", "mundo"], ["hello", "world"]), Tokens(["estoy", "feliz"], ["i", "am", "happy"])]
  {
    var s1, s2, e1, e2 := "Hola mundo", "Estoy feliz", "Hello world", "I am happy";
    assert sp == s1 + "\n" + s2 && en == e1 + "\n" + e2;
    ZipTwoLines(s1, s2, e1, e2);
    HolaMundo(s1);
    HelloWorld(e1);
    EstoyFeliz(s2);
    IAmHappy(e2);
  }

  /** A position with two Spanish tokens longer than two letters and at
      least two English tokens offers both pairs, in order. */
  lemma TwoTokenOffers(w1: string, w2: string, enWords: seq<string>)
    requires |w1| > ShortWordLength && |w2| > ShortWordLength && |enWords| >= 2
    ensures PositionOffers(Tokens([w1, w2], enWords))
            == [VocabularyItem(w1, enWords[0]), VocabularyItem(w2, enWords[1])]
  {
    var ws := [w1, w2];
    assert LineOffers(ws, enWords, 1) == [VocabularyItem(w1, enWords[0])];
  }

  lemma TwoPositionOffers(p: Position, q: Position)
    ensures Offers([p, q]) == PositionOffers(p) + PositionOffers(q)
  {
    assert [p, q][1..] == [q];
    assert [q][1..] == [];
    assert Offers([q]) == PositionOffers(q) + [];
  }

  lemma ExampleKeysDistinct(items: seq<VocabularyItem>)
    requires items == [VocabularyItem("hola", "hello"), VocabularyItem("mundo", "world"),
                       VocabularyItem("estoy", "i"), VocabularyItem("feliz", "am")]
    ensures DistinctKeys(items)
  {
    assert "mundo"[0] != "estoy"[0] && "mundo"[0] != "feliz"[0] && "estoy"[0] != "feliz"[0];
  }

  /** The glossary of the example: every word longer than two letters,
      paired by its index in the line. */
  lemma ExampleVocabulary(sp: string, en: string)
    requires sp == "Hola mundo\nEstoy feliz" && en == "Hello world\nI am happy"
    ensures Vocabulary(sp, en) == [
              VocabularyItem("hola", "hello"), VocabularyItem("mundo", "world"),
              VocabularyItem("estoy", "i"), VocabularyItem("feliz", "am")]
  {
    var p1 := Tokens(["hola", "mundo"], ["hello", "world"]);
    var p2 := Tokens(["estoy", "feliz"], ["i", "am", "happy"]);
    ExamplePositions(sp, en);
    TwoTokenOffers("hola", "mundo", ["hello", "world"]);
    TwoTokenOffers("estoy", "feliz", ["i", "am", "happy"]);
    TwoPositionOffers(p1, p2);
    var items := [VocabularyItem("hola", "hello"), VocabularyItem("mundo", "world"),
                  VocabularyItem("estoy", "i"), VocabularyItem("feliz", "am")];
    assert AllOffers(sp, en) == items;
    ExampleKeysDistinct(items);
    FirstWinsDistinct(items);
  }

  /** Two trimmed, non-blank lines are the lines of their two-line text. */
  lemma TwoLineText(first: string, second: string)
    requires '\n' !in first && '\n' !in second
    requires IsTrimmedLine(first) && IsTrimmedLine(second)
    ensures NonBlankLines(first + "\n" + second) == [first, second]
  {
    SplitTwoLines(first, second);
    var lines := [first, second];
    assert lines[1..] == [second];
    assert lines[1..][1..] == [];
    assert StrippedNonBlank(lines[1..]) == [second] + StrippedNonBlank([]);
    assert StrippedNonBlank(lines) == [first] + StrippedNonBlank(lines[1..]);
  }

  /** The Spanish lines of the example. */
  lemma ExampleSpanishLines(sp: string)
    requires sp == "Hola mundo\nEstoy feliz"
    ensures NonBlankLines(sp) == ["Hola mundo", "Estoy feliz"]
  {
    var s1, s2 := "Hola mundo", "Estoy feliz";
    assert sp == s1 + "\n" + s2;
    StripTrimmed(s1);
    StripTrimmed(s2);
    TwoLineText(s1, s2);
  }

  /** The English lines of the example. */
  lemma ExampleEnglishLines(en: string)
    requires en == "Hello world\nI am happy"
    ensures NonBlankLines(en) == ["Hello world", "I am happy"]
  {
    var e1, e2 := "Hello world", "I am happy";
    assert en == e1 + "\n" + e2;
    StripTrimmed(e1);
    StripTrimmed(e2);
    TwoLineText(e1, e2);
  }

  /** The alignment of the example: the two lines, in order. */
  lemma ExampleAlignment(sp: string, en: string)
    requires sp == "Hola mundo\nEstoy feliz" && en == "Hello world\nI am happy"
    ensures AlignWords(sp, en) == [
              WordAlignment("Hola mundo", "Hello world"), WordAlignment("Estoy feliz", "I am happy")]
  {
    ExampleSpanishLines(sp);
    ExampleEnglishLines(en);
  }
}

=== FILE: text.dfy ===
/**
  The Python string primitives the pairing code is built from:
  `str.split(sep)`, `sep.join(parts)`, `str.strip()` and the substring
  test `sub in s`.
 */
module Text {
  import opened Chars

  function Min(a: int, b: int): (m: int)
    ensures m <= a && m <= b
    ensures m == a || m == b
  {
    if a <= b then a else b
  }

  predicate AllSpace(s: string) {
    forall k :: 0 <= k < |s| ==> IsSpace(s[k])
  }

  /** Index of the first `sep` in `s`, or `|s|` when there is none. */
  function IndexOf(s: string, sep: char): (i: nat)
    ensures i <= |s|
    decreases |s|
  {
    if s == [] || s[0] == sep then 0 else 1 + IndexOf(s[1..], sep)
  }

  /** `IndexOf` finds the first separator: none before it, and one at it
      unless it is the end of the text. */
  lemma {:induction false} IndexOfFirst(s: string, sep: char)
    ensures forall k :: 0 <= k < IndexOf(s, sep) ==> s[k] != sep
    ensures IndexOf(s, sep) < |s| ==> s[IndexOf(s, sep)] == sep
    decreases |s|
  {
    if s != [] && s[0] != sep {
      IndexOfFirst(s[1..], sep);
    }
  }

  /** `s.split(sep)`: the pieces between separators, always at least one
      (the empty string splits into one empty piece). */
  function Split(s: string, sep: char): (parts: seq<string>)
    ensures |parts| >= 1
    decreases |s|
  {
    var i := IndexOf(s, sep);
    if i == |s| then [s] else [s[..i]] + Split(s[i + 1..], sep)
  }

  /** No piece holds the separator. */
  lemma {:induction false} SplitPieces(s: string, sep: char)
    ensures forall k :: 0 <= k < |Split(s, sep)| ==> sep !in Split(s, sep)[k]
    decreases |s|
  {
    var i := IndexOf(s, sep);
    IndexOfFirst(s, sep);
    assert sep !in s[..i];
    if i < |s| {
      SplitPieces(s[i + 1..], sep);
      assert forall k :: 1 <= k < |Split(s, sep)| ==> Split(s, sep)[k] == Split(s[i + 1..], sep)[k - 1];
    }
  }

  /** `sep.join(parts)`. */
  function Join(parts: seq<string>, sep: char): string
    decreases |parts|
  {
    if parts == [] then []
    else if |parts| == 1 then parts[0]
    else parts[0] + [sep] + Join(parts[1..], sep)
  }

  /** Joining the pieces of a split gives back the text. */
  lemma {:induction false} JoinSplit(s: string, sep: char)
    ensures Join(Split(s, sep), sep) == s
    decreases |s|
  {
    var i := IndexOf(s, sep);
    if i < |s| {
      var rest := s[i + 1..];
      JoinSplit(rest, sep);
      SplitAt(s, sep);
      JoinCons(s[..i], Split(rest, sep), sep);
    }
  }

  /** A text with a separator is its first piece, the separator and the
      rest; its pieces are the first piece and the pieces of the rest. */
  lemma SplitAt(s: string, sep: char)
    requires IndexOf(s, sep) < |s|
    ensures var i := IndexOf(s, sep);
            && s == s[..i] + [sep] + s[i + 1..]
            && Split(s, sep) == [s[..i]] + Split(s[i + 1..], sep)
  {
    var i := IndexOf(s, sep);
    IndexOfFirst(s, sep);
    assert s == s[..i] + [s[i]] + s[i + 1..];
  }

  lemma JoinCons(part: string, parts: seq<string>, sep: char)
    requires |parts| >= 1
    ensures Join([part] + parts, sep) == part + [sep] + Join(parts, sep)
  {
    assert ([part] + parts)[1..] == parts;
  }

  /** Splitting a join of separator-free pieces gives back the pieces. */
  lemma {:induction false} SplitJoin(parts: seq<string>, sep: char)
    requires |parts| >= 1
    requires forall k :: 0 <= k < |parts| ==> sep !in parts[k]
    ensures Split(Join(parts, sep), sep) == parts
    decreases |parts|
  {
    if |parts| == 1 {
      SplitNoSeparator(parts[0], sep);
    } else {
      SplitJoin(parts[1..], sep);
      assert Join(parts, sep) == parts[0] + [sep] + Join(parts[1..], sep);
      SplitAppend(parts[0], Join(parts[1..], sep), sep);
      SplitNoSeparator(parts[0], sep);
      assert [parts[0]] + parts[1..] == parts;
    }
  }

  /** A text without the separator is one piece. */
  lemma SplitNoSeparator(s: string, sep: char)
    requires sep !in s
    ensures Split(s, sep) == [s]
  {
    IndexOfFirst(s, sep);
    assert forall k :: 0 <= k < |s| ==> s[k] != sep;
  }

  /** A separator between two texts is a boundary between their pieces. */
  lemma {:induction false} SplitAppend(a: string, b: string, sep: char)
    ensures Split(a + [sep] + b, sep) == Split(a, sep) + Split(b, sep)
    decreases |a|
  {
    var s := a + [sep] + b;
    var i := IndexOf(a, sep);
    IndexOfAppend(a, b, sep);
    if i == |a| {
      assert s[..i] == a;
      assert s[i + 1..] == b;
    } else {
      var rest := a[i + 1..];
      assert s[..i] == a[..i];
      assert s[i + 1..] == rest + [sep] + b;
      SplitAppend(rest, b, sep);
      assert Split(a, sep) == [a[..i]] + Split(rest, sep);
      assert Split(s, sep) == [a[..i]] + (Split(rest, sep) + Split(b, sep));
    }
  }

  /** The first separator of `a + [sep] + b` is the first one of `a`, or
      the one added after `a`. */
  lemma {:induction false} IndexOfAppend(a: string, b: string, sep: char)
    ensures IndexOf(a + [sep] + b, sep) == IndexOf(a, sep)
    decreases |a|
  {
    var s := a + [sep] + b;
    if a == [] {
      assert s[0] == sep;
    } else {
      assert s[0] == a[0];
      if a[0] != sep {
        assert s[1..] == a[1..] + [sep] + b;
        IndexOfAppend(a[1..], b, sep);
      }
    }
  }

  /** Index of the first non-space character at or after `i`. */
  function FirstNonSpace(s: string, i: nat): (k: nat)
    requires i <= |s|
    ensures i <= k <= |s|
    ensures forall m :: i <= m < k ==> IsSpace(s[m])
    ensures k < |s| ==> !IsSpace(s[k])
    decreases |s| - i
  {
    if i == |s| || !IsSpace(s[i]) then i else FirstNonSpace(s, i + 1)
  }

  /** End of the content in `s[lo..j]`: one past its last non-space
      character, or `lo` when there is none. */
  function ContentEnd(s: string, lo: nat, j: nat): (k: nat)
    requires lo <= j <= |s|
    ensures lo <= k <= j
    ensures forall m :: k <= m < j ==> IsSpace(s[m])
    ensures k > lo ==> !IsSpace(s[k - 1])
    decreases j
  {
    if j == lo || !IsSpace(s[j - 1]) then j else ContentEnd(s, lo, j - 1)
  }

  /** `s.strip()`: `s` without its leading and trailing whitespace. */
  function Strip(s: string): string {
    var i := FirstNonSpace(s, 0);
    s[i..ContentEnd(s, i, |s|)]
  }

  /** The strip is the slice of `s` left after removing only whitespace
      from both ends; it is empty exactly when `s` is all whitespace, and
      otherwise starts and ends with a non-space character. */
  lemma StripSlice(s: string)
    ensures exists i, j {:trigger s[i..j]} ::
              && 0 <= i <= j <= |s| && Strip(s) == s[i..j]
              && (forall m :: 0 <= m < i ==> IsSpace(s[m]))
              && (forall m :: j <= m < |s| ==> IsSpace(s[m]))
    ensures Strip(s) == [] || (!IsSpace(Strip(s)[0]) && !IsSpace(Strip(s)[|Strip(s)| - 1]))
    ensures Strip(s) == [] <==> AllSpace(s)
  {
    var i := FirstNonSpace(s, 0);
    var j := ContentEnd(s, i, |s|);
    assert i < |s| ==> j > i;
    assert Strip(s) == s[i..j];
  }

  /** A stripped string is its own strip. */
  lemma StripIdempotent(s: string)
    ensures Strip(Strip(s)) == Strip(s)
  {
    var r := Strip(s);
    var r' := Strip(r);
    StripSlice(s);
    StripSlice(r);
    var i, j :| 0 <= i <= j <= |r| && r' == r[i..j]
                && (forall m :: 0 <= m < i ==> IsSpace(r[m]))
                && (forall m :: j <= m < |r| ==> IsSpace(r[m]));
    if r != [] {
      assert i == 0;
      assert j == |r|;
    }
  }

  /** A string with no whitespace at either end is its own strip. */
  lemma StripTrimmed(s: string)
    requires s != [] && !IsSpace(s[0]) && !IsSpace(s[|s| - 1])
    ensures Strip(s) == s
  {
    var r := Strip(s);
    StripSlice(s);
    var i, j :| 0 <= i <= j <= |s| && r == s[i..j]
                && (forall m :: 0 <= m < i ==> IsSpace(s[m]))
                && (forall m :: j <= m < |s| ==> IsSpace(s[m]));
    assert i == 0;
    assert j == |s|;
  }

  /** `sub in s`: does `sub` occur in `s`, scanning left to right. */
  function Contains(s: string, sub: string): bool
    decreases |s|
  {
    if |sub| <= |s| && s[..|sub|] == sub then true
    else if s == [] then false
    else Contains(s[1..], sub)
  }

  /** `sub in s` holds exactly when `sub` is a contiguous slice of `s` (the
      empty string occurs in every string). */
  lemma {:induction false} ContainsOccurrence(s: string, sub: string)
    ensures Contains(s, sub) <==> exists i {:trigger s[i..]} :: 0 <= i <= |s| - |sub| && s[i..][..|sub|] == sub
    decreases |s|
  {
    if |sub| <= |s| && s[..|sub|] == sub {
      assert s[0..][..|sub|] == sub;
    } else if s != [] {
      ContainsOccurrence(s[1..], sub);
      assert forall i :: 1 <= i <= |s| ==> s[i..] == s[1..][i - 1..];
      if Contains(s[1..], sub) {
        var i :| 0 <= i <= |s[1..]| - |sub| && s[1..][i..][..|sub|] == sub;
        assert s[i + 1..] == s[1..][i..];
      }
    }
  }
}

=== FILE: tokenize.dfy ===
/**
  The word tokeniser of the vocabulary extractor:
  `re.findall(r'\b[a-záéíóúñ]+\b', line)` and `re.findall(r'\b[a-z]+\b', line)`.

  A match must start and end on a word boundary, so it is a whole maximal
  run of word characters; the run is a token exactly when every one of its
  characters belongs to the letter class. `pingüino` and `abc1` are single
  runs with a character outside the class and yield nothing; `don't` is two
  runs and yields `don` and `t`.
 */
module Tokenize {
  import opened Chars
  import opened Text

  /** Length of the run of word characters at the start of `s`. */
  function WordRunLength(s: string): (n: nat)
    ensures n <= |s|
    decreases |s|
  {
    if s == [] || !IsWordChar(s[0]) then 0 else 1 + WordRunLength(s[1..])
  }

  /** The run is maximal: every character in it is a word character, and
      the character after it, if any, is not. */
  lemma {:induction false} WordRunMaximal(s: string)
    ensures forall k :: 0 <= k < WordRunLength(s) ==> IsWordChar(s[k])
    ensures WordRunLength(s) < |s| ==> !IsWordChar(s[WordRunLength(s)])
    decreases |s|
  {
    if s != [] && IsWordChar(s[0]) {
      WordRunMaximal(s[1..]);
    }
  }

  predicate AllInAlphabet(a: Alphabet, w: string) {
    forall k :: 0 <= k < |w| ==> InAlphabet(a, w[k])
  }

  /** The tokens of `s`, left to right: each maximal word-character run that
      lies wholly inside the letter class `a`. */
  function FindWords(a: Alphabet, s: string): seq<string>
    decreases |s|
  {
    if s == [] then []
    else if !IsWordChar(s[0]) then FindWords(a, s[1..])
    else
      var n := WordRunLength(s);
      var run := s[..n];
      (if AllInAlphabet(a, run) then [run] else []) + FindWords(a, s[n..])
  }

  /** Every token is a non-empty word of the letter class. */
  lemma {:induction false} FindWordsTokens(a: Alphabet, s: string)
    ensures forall k :: 0 <= k < |FindWords(a, s)| ==>
              FindWords(a, s)[k] != [] && AllInAlphabet(a, FindWords(a, s)[k])
    decreases |s|
  {
    if s != [] {
      if !IsWordChar(s[0]) {
        FindWordsTokens(a, s[1..]);
      } else {
        var n := WordRunLength(s);
        FindWordsTokens(a, s[n..]);
      }
    }
  }

  /** Tokens of the lower-cased line, as the vocabulary extractor takes them. */
  function LineWords(a: Alphabet, line: string): seq<string>
  {
    FindWords(a, LowerString(line))
  }

  /** A run that is cut short inside `x` is not affected by what follows `x`. */
  lemma {:induction false} WordRunLengthAppend(x: string, y: string)
    requires WordRunLength(x) < |x|
    ensures WordRunLength(x + y) == WordRunLength(x)
    decreases |x|
  {
    if IsWordChar(x[0]) {
      assert (x + y)[1..] == x[1..] + y;
      WordRunLengthAppend(x[1..], y);
    }
  }

  /** A non-word character separates the tokens on its two sides. */
  lemma {:induction false} FindWordsSeparator(a: Alphabet, x: string, c: char, y: string)
    requires !IsWordChar(c)
    ensures FindWords(a, x + [c] + y) == FindWords(a, x) + FindWords(a, y)
    decreases |x|
  {
    var s := x + [c] + y;
    if x == [] {
      assert s == [c] + y && s[1..] == y;
    } else if !IsWordChar(x[0]) {
      assert s[0] == x[0];
      assert s[1..] == x[1..] + [c] + y;
      FindWordsSeparator(a, x[1..], c, y);
      assert FindWords(a, s) == FindWords(a, s[1..]);
      assert FindWords(a, x) == FindWords(a, x[1..]);
    } else if WordRunLength(x) == |x| {
      WholeRunThenSeparator(a, x, c, y);
    } else {
      var n := WordRunLength(x);
      assert s == x + ([c] + y);
      WordRunLengthAppend(x, [c] + y);
      assert s[..n] == x[..n];
      assert s[n..] == x[n..] + [c] + y;
      FindWordsSeparator(a, x[n..], c, y);
      var head := if AllInAlphabet(a, x[..n]) then [x[..n]] else [];
      assert FindWords(a, s) == head + FindWords(a, s[n..]);
      assert FindWords(a, x) == head + FindWords(a, x[n..]);
      assert head + (FindWords(a, x[n..]) + FindWords(a, y)) == (head + FindWords(a, x[n..])) + FindWords(a, y);
    }
  }

  /** A run that fills all of `x`, followed by a separator. */
  lemma WholeRunThenSeparator(a: Alphabet, x: string, c: char, y: string)
    requires x != [] && IsWordChar(x[0]) && WordRunLength(x) == |x|
    requires !IsWordChar(c)
    ensures FindWords(a, x + [c] + y) == FindWords(a, x) + FindWords(a, y)
  {
    var s := x + [c] + y;
    var n := |x|;
    WordRunLengthPrefix(x, [c] + y);
    assert s == x + ([c] + y);
    assert WordRunLength(s) == n;
    assert s[..n] == x;
    assert s[n..] == [c] + y;
    assert ([c] + y)[1..] == y;
    assert FindWords(a, [c] + y) == FindWords(a, y);
    assert x[n..] == [];
    assert x[..n] == x;
    var head := if AllInAlphabet(a, x) then [x] else [];
    assert FindWords(a, x) == head + FindWords(a, []);
    assert FindWords(a, s) == head + FindWords(a, [c] + y);
  }

  /** A run that fills all of `x` extends to the first non-word character of
      what follows. */
  lemma {:induction false} WordRunLengthPrefix(x: string, y: string)
    requires WordRunLength(x) == |x|
    requires y != [] && !IsWordChar(y[0])
    ensures WordRunLength(x + y) == |x|
    decreases |x|
  {
    if x == [] {
      assert x + y == y;
    } else {
      assert (x + y)[1..] == x[1..] + y;
      WordRunLengthPrefix(x[1..], y);
    }
  }

  /** A string made only of word characters is one run: one token if it lies
      in the letter class, none otherwise. */
  lemma SingleRun(a: Alphabet, w: string)
    requires w != []
    requires forall k :: 0 <= k < |w| ==> IsWordChar(w[k])
    ensures FindWords(a, w) == if AllInAlphabet(a, w) then [w] else []
  {
    WordRunLengthWhole(w);
    assert w[..|w|] == w;
    assert w[|w|..] == [];
  }

  lemma {:induction false} WordRunLengthWhole(w: string)
    requires forall k :: 0 <= k < |w| ==> IsWordChar(w[k])
    ensures WordRunLength(w) == |w|
    decreases |w|
  {
    if w != [] {
      WordRunLengthWhole(w[1..]);
    }
  }

  /** Round trip: tokenising letter-class words joined by a non-word
      character (a space, an apostrophe, a comma) gives back the words. */
  lemma {:induction false} FindWordsJoin(a: Alphabet, words: seq<string>, sep: char)
    requires !IsWordChar(sep)
    requires forall k :: 0 <= k < |words| ==> words[k] != [] && AllInAlphabet(a, words[k])
    ensures FindWords(a, Join(words, sep)) == words
    decreases |words|
  {
    if words == [] {
    } else {
      forall m | 0 <= m < |words[0]| ensures IsWordChar(words[0][m]) {
        AlphabetIsWord(a, words[0][m]);
      }
      SingleRun(a, words[0]);
      if |words| > 1 {
        FindWordsJoin(a, words[1..], sep);
        FindWordsSeparator(a, words[0], sep, Join(words[1..], sep));
        assert [words[0]] + words[1..] == words;
      }
    }
  }

  /** A run holding a character outside the class yields no token:
      `pingüino` has a letter outside `[a-záéíóúñ]`. */
  lemma ForeignLetterExample(w: string)
    requires w == "ping\U{FC}ino"
    ensures FindWords(Spanish, w) == []
  {
    assert !InAlphabet(Spanish, w[4]);
    SingleRun(Spanish, w);
  }

  /** `abc1` is one run of word characters, so the letters before the
      digit are not a token either. */
  lemma DigitInRunExample(w: string)
    requires w == "abc1"
    ensures FindWords(English, w) == []
  {
    assert !InAlphabet(English, w[3]);
    SingleRun(English, w);
  }

  /** An apostrophe splits a word into two runs: `don't` yields `don` and
      `t`. */
  lemma ApostropheExample(don: string, t: string)
    requires don == "don" && t == "t"
    ensures FindWords(English, don + ['\''] + t) == [don, t]
  {
    assert Join([don, t], '\'') == don + ['\''] + t;
    FindWordsJoin(English, [don, t], '\'');
  }

  /** A line whose lower-cased form is letter-class words joined by single
      spaces yields exactly those words. */
  lemma LineOfWords(a: Alphabet, line: string, words: seq<string>)
    requires forall k :: 0 <= k < |words| ==> words[k] != [] && AllInAlphabet(a, words[k])
    requires LowerString(line) == Join(words, ' ')
    ensures LineWords(a, line) == words
  {
    FindWordsJoin(a, words, ' ');
  }

  /** Capitals are lowered before tokenising. */
  lemma CapitalExample(line: string)
    requires line == "Canci\U{D3}n"
    ensures LineWords(Spanish, line) == ["canci\U{F3}n"]
  {
    assert Lower(line[0]) == 'c' && Lower(line[5]) == '\U{F3}';
    assert LowerString(line) == Join(["canci\U{F3}n"], ' ');
    LineOfWords(Spanish, line, ["canci\U{F3}n"]);
  }
}

=== FILE: vocabulary.dfy ===
/**
  Vocabulary extraction (`extract_vocabulary`).

  The raw lines of the two texts are zipped by index, so a blank line still
  occupies a slot. At every position where both trimmed lines are non-empty,
  the i-th Spanish token is offered with the i-th English token, for every
  Spanish token longer than two letters that has an English token at the
  same index (i counts all Spanish tokens of the line, short ones too). The
  offers go, in order, into an insertion-ordered map in which the first
  offer of a word wins; the result is the first thirty entries.
 */
module VocabularyExtraction {
  import opened Chars
  import opened Text
  import opened Tokenize

  /** One glossary entry: a Spanish word and the English word paired with
      it. The insertion-ordered map is a sequence of these. */
  datatype VocabularyItem = VocabularyItem(spanish: string, english: string)

  /** At most this many entries are returned. */
  const MaxItems: nat := 30

  /** Spanish words of this length or shorter are skipped. */
  const ShortWordLength: nat := 2

  predicate HasKey(dict: seq<VocabularyItem>, w: string) {
    exists k :: 0 <= k < |dict| && dict[k].spanish == w
  }

  predicate DistinctKeys(dict: seq<VocabularyItem>) {
    forall k, m :: 0 <= k < m < |dict| ==> dict[k].spanish != dict[m].spanish
  }

  /** The shape of every key: longer than two characters, and made only of
      `a-z` and `áéíóúñ`. */
  predicate IsKeyWord(w: string) {
    |w| > ShortWordLength && AllInAlphabet(Spanish, w)
  }

  // ---------------------------------------------------------------------
  // The insertion-ordered map with first-wins insertion
  // ---------------------------------------------------------------------

  /** `if w not in vocab_dict: vocab_dict[w] = v`. */
  function Insert(dict: seq<VocabularyItem>, item: VocabularyItem): (r: seq<VocabularyItem>)
    ensures HasKey(r, item.spanish)
    ensures DistinctKeys(dict) ==> DistinctKeys(r)
    ensures forall w :: HasKey(r, w) <==> HasKey(dict, w) || w == item.spanish
    ensures dict <= r && |r| <= |dict| + 1
    ensures |r| > |dict| ==> r[|dict|] == item
  {
    if HasKey(dict, item.spanish) then dict
    else
      var r := dict + [item];
      assert r[|dict|].spanish == item.spanish;
      assert forall k :: 0 <= k < |dict| ==> r[k] == dict[k];
      r
  }

  /** The map built by inserting `items` in order, first insertion winning. */
  function FirstWins(items: seq<VocabularyItem>): (dict: seq<VocabularyItem>)
    ensures DistinctKeys(dict)
    ensures |dict| <= |items|
    ensures forall k :: 0 <= k < |dict| ==> dict[k] in items
    decreases |items|
  {
    if items == [] then []
    else
      var init := items[..|items| - 1];
      var dict := Insert(FirstWins(init), items[|items| - 1]);
      assert forall k :: 0 <= k < |init| ==> init[k] == items[k];
      dict
  }

  /** Position of the first item whose key is `w`. */
  function FirstIndex(items: seq<VocabularyItem>, w: string): (i: nat)
    requires HasKey(items, w)
    ensures i < |items| && items[i].spanish == w
    ensures forall m :: 0 <= m < i ==> items[m].spanish != w
    decreases |items|
  {
    if items[0].spanish == w then 0
    else
      assert HasKey(items[1..], w) by {
        var k :| 0 <= k < |items| && items[k].spanish == w;
        assert items[1..][k - 1].spanish == w;
      }
      1 + FirstIndex(items[1..], w)
  }

  lemma FirstWinsSnoc(items: seq<VocabularyItem>, item: VocabularyItem)
    ensures FirstWins(items + [item]) == Insert(FirstWins(items), item)
  {
    assert (items + [item])[..|items|] == items;
  }

  lemma HasKeySnoc(init: seq<VocabularyItem>, item: VocabularyItem, w: string)
    ensures HasKey(init + [item], w) <==> HasKey(init, w) || w == item.spanish
  {
    var items := init + [item];
    if HasKey(init, w) {
      var k :| 0 <= k < |init| && init[k].spanish == w;
      assert items[k] == init[k];
    }
    if HasKey(items, w) {
      var k :| 0 <= k < |items| && items[k].spanish == w;
      if k < |init| {
        assert init[k] == items[k];
      }
    }
    if w == item.spanish {
      assert items[|init|] == item;
    }
  }

  /** The keys of the map are exactly the keys offered. */
  lemma {:induction false} FirstWinsKeys(items: seq<VocabularyItem>, w: string)
    ensures HasKey(FirstWins(items), w) <==> HasKey(items, w)
    decreases |items|
  {
    if items != [] {
      var init := items[..|items| - 1];
      var last := items[|items| - 1];
      assert items == init + [last];
      FirstWinsKeys(init, w);
      HasKeySnoc(init, last, w);
    }
  }

  /** A key already offered keeps its first position when more items follow. */
  lemma FirstIndexAppend(init: seq<VocabularyItem>, item: VocabularyItem, w: string)
    requires HasKey(init, w)
    ensures HasKey(init + [item], w)
    ensures FirstIndex(init + [item], w) == FirstIndex(init, w)
  {
    var items := init + [item];
    var i := FirstIndex(init, w);
    assert items[i].spanish == w;
    assert forall k :: 0 <= k < |init| ==> items[k] == init[k];
  }

  /** `e` is the first item offered with its key. */
  predicate IsFirstOffer(items: seq<VocabularyItem>, e: VocabularyItem) {
    HasKey(items, e.spanish) && e == items[FirstIndex(items, e.spanish)]
  }

  /** Key `v` is first offered before key `w`. */
  predicate OfferedBefore(items: seq<VocabularyItem>, v: string, w: string) {
    HasKey(items, v) && HasKey(items, w) && FirstIndex(items, v) < FirstIndex(items, w)
  }

  /** A key absent from `init` and offered last is first offered last. */
  lemma FirstIndexOfNewKey(init: seq<VocabularyItem>, item: VocabularyItem)
    requires !HasKey(init, item.spanish)
    ensures HasKey(init + [item], item.spanish)
    ensures FirstIndex(init + [item], item.spanish) == |init|
  {
    var items := init + [item];
    assert items[|init|].spanish == item.spanish;
    assert forall k :: 0 <= k < |init| ==> items[k] == init[k];
  }

  /** First wins: each entry is the first offer of its key. */
  lemma {:induction false} FirstWinsIsFirstOffer(items: seq<VocabularyItem>)
    ensures forall k :: 0 <= k < |FirstWins(items)| ==> IsFirstOffer(items, FirstWins(items)[k])
    decreases |items|
  {
    if items != [] {
      var init := items[..|items| - 1];
      var last := items[|items| - 1];
      assert items == init + [last];
      FirstWinsIsFirstOffer(init);
      var d0 := FirstWins(init);
      assert FirstWins(items) == Insert(d0, last);
      forall k | 0 <= k < |d0| ensures IsFirstOffer(items, d0[k]) {
        FirstIndexAppend(init, last, d0[k].spanish);
        assert items[FirstIndex(init, d0[k].spanish)] == init[FirstIndex(init, d0[k].spanish)];
      }
      if !HasKey(d0, last.spanish) {
        FirstWinsKeys(init, last.spanish);
        FirstIndexOfNewKey(init, last);
        assert FirstWins(items) == d0 + [last];
      }
    }
  }

  /** The entries are in the order in which their keys were first offered. */
  lemma {:induction false} FirstWinsOrder(items: seq<VocabularyItem>)
    ensures forall k, m :: 0 <= k < m < |FirstWins(items)| ==>
              OfferedBefore(items, FirstWins(items)[k].spanish, FirstWins(items)[m].spanish)
    decreases |items|
  {
    if items != [] {
      var init := items[..|items| - 1];
      var last := items[|items| - 1];
      assert items == init + [last];
      FirstWinsOrder(init);
      var d0 := FirstWins(init);
      var dict := FirstWins(items);
      assert dict == Insert(d0, last);
      forall k, m | 0 <= k < m < |dict|
        ensures OfferedBefore(items, dict[k].spanish, dict[m].spanish)
      {
        FirstWinsKeys(init, d0[k].spanish);
        FirstIndexAppend(init, last, d0[k].spanish);
        if m < |d0| {
          assert OfferedBefore(init, d0[k].spanish, d0[m].spanish);
          FirstWinsKeys(init, d0[m].spanish);
          FirstIndexAppend(init, last, d0[m].spanish);
        } else {
          assert m == |d0| && dict[m] == last;
          FirstWinsKeys(init, last.spanish);
          FirstIndexOfNewKey(init, last);
        }
      }
    }
  }

  /** Later insertions never overwrite or reorder earlier entries. */
  lemma {:induction false} FirstWinsExtends(xs: seq<VocabularyItem>, ys: seq<VocabularyItem>)
    ensures FirstWins(xs) <= FirstWins(xs + ys)
    decreases |ys|
  {
    if ys == [] {
      assert xs + ys == xs;
    } else {
      var init, last := ys[..|ys| - 1], ys[|ys| - 1];
      FirstWinsExtends(xs, init);
      assert ys == init + [last];
      assert xs + ys == (xs + init) + [last];
      FirstWinsSnoc(xs + init, last);
    }
  }

  /** Offers with pairwise different keys all enter the map, in order. */
  lemma {:induction false} FirstWinsDistinct(items: seq<VocabularyItem>)
    requires DistinctKeys(items)
    ensures FirstWins(items) == items
    decreases |items|
  {
    if items != [] {
      var init := items[..|items| - 1];
      var last := items[|items| - 1];
      assert init + [last] == items;
      assert DistinctKeys(init);
      FirstWinsDistinct(init);
      forall k | 0 <= k < |init|
        ensures init[k].spanish != last.spanish
      {
        assert items[k] == init[k];
      }
      assert FirstWins(items) == Insert(init, last);
    }
  }

  // ---------------------------------------------------------------------
  // The offers made by the lines
  // ---------------------------------------------------------------------

  /** The pairing made for Spanish token i of a line, if any: with English
      token i, when the Spanish token is longer than two letters and there
      is an English token at index i. */
  function TokenOffer(spWords: seq<string>, enWords: seq<string>, i: nat): (offer: seq<VocabularyItem>)
    requires i < |spWords|
    ensures |offer| <= 1
    ensures offer != [] <==> |spWords[i]| > ShortWordLength && i < |enWords|
    ensures forall item :: item in offer <==> TokenPairAt(spWords, enWords, i, item)
  {
    if |spWords[i]| > ShortWordLength && i < |enWords| then [VocabularyItem(spWords[i], enWords[i])] else []
  }

  /** The pairings the inner loop makes for the first `n` Spanish tokens of
      a line, in token order. */
  function LineOffers(spWords: seq<string>, enWords: seq<string>, n: nat): seq<VocabularyItem>
    requires n <= |spWords|
    decreases n
  {
    if n == 0 then [] else LineOffers(spWords, enWords, n - 1) + TokenOffer(spWords, enWords, n - 1)
  }

  /** One step of the inner loop on the map. */
  lemma InsertTokenOffer(before: seq<VocabularyItem>, spWords: seq<string>, enWords: seq<string>, i: nat)
    requires i < |spWords|
    ensures FirstWins(before + LineOffers(spWords, enWords, i + 1))
            == if |spWords[i]| > ShortWordLength && i < |enWords|
               then Insert(FirstWins(before + LineOffers(spWords, enWords, i)), VocabularyItem(spWords[i], enWords[i]))
               else FirstWins(before + LineOffers(spWords, enWords, i))
  {
    var offered := before + LineOffers(spWords, enWords, i);
    assert before + LineOffers(spWords, enWords, i + 1) == offered + TokenOffer(spWords, enWords, i);
    if |spWords[i]| > ShortWordLength && i < |enWords| {
      FirstWinsSnoc(offered, VocabularyItem(spWords[i], enWords[i]));
    } else {
      assert offered + TokenOffer(spWords, enWords, i) == offered;
    }
  }

  /** What one position of the zipped raw lines yields: nothing when either
      trimmed line is empty, otherwise the tokens of the two trimmed lines. */
  datatype Position =
    | Skipped
    | Tokens(spWords: seq<string>, enWords: seq<string>)

  /** The body of the outer loop up to the tokenising: strip both lines,
      skip the position when either is empty, otherwise find the words. */
  function ReadPosition(spLine: string, enLine: string): Position {
    var sp := Strip(spLine);
    var en := Strip(enLine);
    if sp == [] || en == [] then Skipped
    else Tokens(LineWords(Spanish, sp), LineWords(English, en))
  }

  /** `zip(spanish_lines, english_lines)`, each pair read as a position; the
      zip stops at the shorter list. */
  function ZipPositions(spLines: seq<string>, enLines: seq<string>): (ps: seq<Position>)
    ensures |ps| == Min(|spLines|, |enLines|)
    decreases |spLines|
  {
    if spLines == [] || enLines == [] then []
    else [ReadPosition(spLines[0], enLines[0])] + ZipPositions(spLines[1..], enLines[1..])
  }

  /** The offers of one position, in token order. */
  function PositionOffers(p: Position): seq<VocabularyItem> {
    match p
    case Skipped => []
    case Tokens(spWords, enWords) => LineOffers(spWords, enWords, |spWords|)
  }

  /** The offers of a run of positions, in order. */
  function Offers(ps: seq<Position>): seq<VocabularyItem>
    decreases |ps|
  {
    if ps == [] then [] else PositionOffers(ps[0]) + Offers(ps[1..])
  }

  /** Every offer the function makes, in the order the loops make them. */
  function AllOffers(spanishText: string, englishText: string): seq<VocabularyItem> {
    Offers(ZipPositions(Split(spanishText, '\n'), Split(englishText, '\n')))
  }

  /** The glossary: the first thirty entries of the first-wins map of all
      offers. */
  function Vocabulary(spanishText: string, englishText: string): (vocab: seq<VocabularyItem>)
    ensures |vocab| <= MaxItems
    ensures DistinctKeys(vocab)
    ensures vocab <= FirstWins(AllOffers(spanishText, englishText))
    ensures |vocab| == Min(MaxItems, |FirstWins(AllOffers(spanishText, englishText))|)
  {
    var dict := FirstWins(AllOffers(spanishText, englishText));
    dict[..Min(MaxItems, |dict|)]
  }

  /** The inner `for i, sp_word in enumerate(sp_words)` loop over one line
      pair: it inserts exactly the offers of the line into the map. */
  method InsertLineWords(dict: seq<VocabularyItem>, spWords: seq<string>, enWords: seq<string>,
                         ghost before: seq<VocabularyItem>)
    returns (dict': seq<VocabularyItem>)
    requires dict == FirstWins(before)
    ensures dict' == FirstWins(before + LineOffers(spWords, enWords, |spWords|))
    ensures dict <= dict'
  {
    dict' := dict;
    var i := 0;
    assert before + LineOffers(spWords, enWords, 0) == before;
    while i < |spWords|
      invariant i <= |spWords|
      invariant dict' == FirstWins(before + LineOffers(spWords, enWords, i))
    {
      var spWord := spWords[i];
      InsertTokenOffer(before, spWords, enWords, i);
      if |spWord| > ShortWordLength && !HasKey(dict', spWord) {
        if i < |enWords| {
          dict' := dict' + [VocabularyItem(spWord, enWords[i])];
        }
      }
      i := i + 1;
    }
    FirstWinsExtends(before, LineOffers(spWords, enWords, |spWords|));
  }

  /** The body of the outer loop for one pair of raw lines: strip both,
      skip the pair when either is empty, otherwise tokenise and insert. */
  method InsertLinePair(dict: seq<VocabularyItem>, spanishLine: string, englishLine: string,
                        ghost before: seq<VocabularyItem>)
    returns (dict': seq<VocabularyItem>)
    requires dict == FirstWins(before)
    ensures dict' == FirstWins(before + PositionOffers(ReadPosition(spanishLine, englishLine)))
  {
    var spLine := Strip(spanishLine);
    var enLine := Strip(englishLine);
    if spLine != [] && enLine != [] {
      var spWords := LineWords(Spanish, spLine);
      var enWords := LineWords(English, enLine);
      dict' := InsertLineWords(dict, spWords, enWords, before);
    } else {
      dict' := dict;
      assert before + [] == before;
    }
  }

  /** `extract_vocabulary(spanish_text, english_text)`, written as its two
      nested loops over the zipped lines and their tokens. */
  method ExtractVocabulary(spanishText: string, englishText: string) returns (vocab: seq<VocabularyItem>)
    ensures vocab == Vocabulary(spanishText, englishText)
  {
    var spanishLines := Split(spanishText, '\n');
    var englishLines := Split(englishText, '\n');
    ghost var ps := ZipPositions(spanishLines, englishLines);
    var dict: seq<VocabularyItem> := [];
    var j := 0;
    while j < |spanishLines| && j < |englishLines|
      invariant j <= |ps|
      invariant dict == FirstWins(Offers(ps[..j]))
    {
      ZipPositionsIndex(spanishLines, englishLines, j);
      OffersPrefixStep(ps, j);
      dict := InsertLinePair(dict, spanishLines[j], englishLines[j], Offers(ps[..j]));
      j := j + 1;
    }
    assert ps[..j] == ps;
    vocab := dict[..Min(MaxItems, |dict|)];
  }

  // ---------------------------------------------------------------------
  // The positions
  // ---------------------------------------------------------------------

  /** Position j of the zip reads line j of each text. */
  lemma {:induction false} ZipPositionsIndex(spLines: seq<string>, enLines: seq<string>, j: nat)
    requires j < |spLines| && j < |enLines|
    ensures ZipPositions(spLines, enLines)[j] == ReadPosition(spLines[j], enLines[j])
    decreases j
  {
    if j > 0 {
      ZipPositionsIndex(spLines[1..], enLines[1..], j - 1);
    }
  }

  /** Zipping two pairs of equally long line lists one after the other. */
  lemma {:induction false} ZipPositionsAppend(a: seq<string>, a': seq<string>, b: seq<string>, b': seq<string>)
    requires |a| == |b|
    ensures ZipPositions(a + a', b + b') == ZipPositions(a, b) + ZipPositions(a', b')
    decreases |a|
  {
    if a == [] {
      assert a + a' == a' && b + b' == b';
    } else {
      assert (a + a')[1..] == a[1..] + a';
      assert (b + b')[1..] == b[1..] + b';
      ZipPositionsAppend(a[1..], a', b[1..], b');
    }
  }

  /** Spanish lines beyond the last English line are never read. */
  lemma {:induction false} ZipPositionsSurplus(a: seq<string>, extra: seq<string>, b: seq<string>)
    requires |b| <= |a|
    ensures ZipPositions(a + extra, b) == ZipPositions(a, b)
    decreases |b|
  {
    if b != [] {
      assert (a + extra)[1..] == a[1..] + extra;
      ZipPositionsSurplus(a[1..], extra, b[1..]);
    }
  }

  /** The offers of the first `j + 1` positions extend those of the first
      `j` by the offers of position j. */
  lemma OffersPrefixStep(ps: seq<Position>, j: nat)
    requires j < |ps|
    ensures Offers(ps[..j + 1]) == Offers(ps[..j]) + PositionOffers(ps[j])
  {
    assert ps[..j + 1] == ps[..j] + [ps[j]];
    OffersAppend(ps[..j], [ps[j]]);
    assert Offers([ps[j]]) == PositionOffers(ps[j]) + Offers([]);
  }

  /** A blank line is a skipped position, whatever stands beside it. */
  lemma BlankLineIsSkipped(blank: string, line: string)
    requires AllSpace(blank)
    ensures ReadPosition(blank, line) == Skipped
  {
  }

  /** The offers of two runs of positions are concatenated. */
  lemma {:induction false} OffersAppend(ps: seq<Position>, qs: seq<Position>)
    ensures Offers(ps + qs) == Offers(ps) + Offers(qs)
    decreases |ps|
  {
    if ps == [] {
      assert ps + qs == qs;
    } else {
      assert (ps + qs)[0] == ps[0];
      assert (ps + qs)[1..] == ps[1..] + qs;
      OffersAppend(ps[1..], qs);
    }
  }

  // ---------------------------------------------------------------------
  // Properties of the glossary
  // ---------------------------------------------------------------------

  /** Token `i` of a line pair offers `item`: the Spanish token i is
      longer than two letters, there is an English token i, and `item`
      pairs the two. */
  predicate TokenPairAt(spWords: seq<string>, enWords: seq<string>, i: nat, item: VocabularyItem) {
    && i < |spWords| && i < |enWords|
    && |spWords[i]| > ShortWordLength
    && item == VocabularyItem(spWords[i], enWords[i])
  }

  predicate PositionOffersAt(p: Position, i: nat, item: VocabularyItem) {
    p.Tokens? && TokenPairAt(p.spWords, p.enWords, i, item)
  }

  /** The line pair offers `item` at token index `i`: both trimmed lines
      are non-empty and their tokens pair `item` at index i. */
  predicate OfferedAt(spLine: string, enLine: string, i: nat, item: VocabularyItem) {
    && Strip(spLine) != [] && Strip(enLine) != []
    && TokenPairAt(LineWords(Spanish, Strip(spLine)), LineWords(English, Strip(enLine)), i, item)
  }

  lemma OfferedAtPosition(spLine: string, enLine: string, i: nat, item: VocabularyItem)
    ensures OfferedAt(spLine, enLine, i, item) <==> PositionOffersAt(ReadPosition(spLine, enLine), i, item)
  {
  }

  lemma {:induction false} LineOffersMembership(spWords: seq<string>, enWords: seq<string>, n: nat, item: VocabularyItem)
    requires n <= |spWords|
    ensures item in LineOffers(spWords, enWords, n) <==>
              exists i :: 0 <= i < n && TokenPairAt(spWords, enWords, i, item)
    decreases n
  {
    if n > 0 {
      var prev := LineOffers(spWords, enWords, n - 1);
      var here := TokenOffer(spWords, enWords, n - 1);
      assert LineOffers(spWords, enWords, n) == prev + here;
      assert item in prev + here <==> item in prev || item in here;
      assert item in here <==> TokenPairAt(spWords, enWords, n - 1, item);
      LineOffersMembership(spWords, enWords, n - 1, item);
      if exists i :: 0 <= i < n && TokenPairAt(spWords, enWords, i, item) {
        var i :| 0 <= i < n && TokenPairAt(spWords, enWords, i, item);
        if i < n - 1 {
          assert item in prev;
        }
      }
    }
  }

  lemma PositionOffersMembership(p: Position, item: VocabularyItem)
    ensures item in PositionOffers(p) <==> exists i: nat :: PositionOffersAt(p, i, item)
  {
    if p.Tokens? {
      LineOffersMembership(p.spWords, p.enWords, |p.spWords|, item);
      if item in PositionOffers(p) {
        var i :| 0 <= i < |p.spWords| && TokenPairAt(p.spWords, p.enWords, i, item);
        assert PositionOffersAt(p, i, item);
      }
      if exists i: nat :: PositionOffersAt(p, i, item) {
        var i: nat :| PositionOffersAt(p, i, item);
        assert 0 <= i < |p.spWords| && TokenPairAt(p.spWords, p.enWords, i, item);
      }
    }
  }

  /** An item is offered by a run of positions exactly when one of them
      offers it. */
  lemma {:induction false} OffersMembership(ps: seq<Position>, item: VocabularyItem)
    ensures item in Offers(ps) <==> exists j, i :: 0 <= j < |ps| && PositionOffersAt(ps[j], i, item)
    decreases |ps|
  {
    if ps != [] {
      var here := PositionOffers(ps[0]);
      var rest := Offers(ps[1..]);
      assert Offers(ps) == here + rest;
      assert item in here + rest <==> item in here || item in rest;
      OffersMembership(ps[1..], item);
      PositionOffersMembership(ps[0], item);
      if item in here {
        var i :| PositionOffersAt(ps[0], i, item);
        assert 0 <= 0 < |ps| && PositionOffersAt(ps[0], i, item);
      } else if item in rest {
        var j, i :| 0 <= j < |ps[1..]| && PositionOffersAt(ps[1..][j], i, item);
        assert PositionOffersAt(ps[j + 1], i, item);
      }
      if exists j, i :: 0 <= j < |ps| && PositionOffersAt(ps[j], i, item) {
        var j, i :| 0 <= j < |ps| && PositionOffersAt(ps[j], i, item);
        if j > 0 {
          assert PositionOffersAt(ps[1..][j - 1], i, item);
        }
      }
    }
  }

  /** An item is among all the offers exactly when some line pair below
      the shorter line count offers it. */
  lemma AllOffersMembership(spanishText: string, englishText: string, item: VocabularyItem)
    ensures var spLines := Split(spanishText, '\n');
            var enLines := Split(englishText, '\n');
            item in AllOffers(spanishText, englishText) <==>
              exists j, i :: 0 <= j < |spLines| && j < |enLines| && OfferedAt(spLines[j], enLines[j], i, item)
  {
    var spLines := Split(spanishText, '\n');
    var enLines := Split(englishText, '\n');
    if item in AllOffers(spanishText, englishText) {
      var j, i := OfferedLinePair(spanishText, englishText, item);
    }
    if exists j, i :: 0 <= j < |spLines| && j < |enLines| && OfferedAt(spLines[j], enLines[j], i, item) {
      var j, i :| 0 <= j < |spLines| && j < |enLines| && OfferedAt(spLines[j], enLines[j], i, item);
      LinePairOffers(spanishText, englishText, j, i, item);
    }
  }

  /** The line pair and the token index an offer comes from. */
  lemma OfferedLinePair(spanishText: string, englishText: string, item: VocabularyItem) returns (j: nat, i: nat)
    requires item in AllOffers(spanishText, englishText)
    ensures j < |Split(spanishText, '\n')| && j < |Split(englishText, '\n')|
    ensures OfferedAt(Split(spanishText, '\n')[j], Split(englishText, '\n')[j], i, item)
  {
    var spLines := Split(spanishText, '\n');
    var enLines := Split(englishText, '\n');
    var ps := ZipPositions(spLines, enLines);
    OffersMembership(ps, item);
    j, i :| 0 <= j < |ps| && PositionOffersAt(ps[j], i, item);
    ZipPositionsIndex(spLines, enLines, j);
    OfferedAtPosition(spLines[j], enLines[j], i, item);
  }

  /** Every pair a line pair offers is among the offers. */
  lemma LinePairOffers(spanishText: string, englishText: string, j: nat, i: nat, item: VocabularyItem)
    requires j < |Split(spanishText, '\n')| && j < |Split(englishText, '\n')|
    requires OfferedAt(Split(spanishText, '\n')[j], Split(englishText, '\n')[j], i, item)
    ensures item in AllOffers(spanishText, englishText)
  {
    var spLines := Split(spanishText, '\n');
    var enLines := Split(englishText, '\n');
    var ps := ZipPositions(spLines, enLines);
    ZipPositionsIndex(spLines, enLines, j);
    OfferedAtPosition(spLines[j], enLines[j], i, item);
    OffersMembership(ps, item);
    assert PositionOffersAt(ps[j], i, item);
  }

  /** Both token lists of a position hold letter-class words only. */
  predicate WellFormed(p: Position) {
    p.Tokens? ==>
      && (forall k :: 0 <= k < |p.spWords| ==> p.spWords[k] != [] && AllInAlphabet(Spanish, p.spWords[k]))
      && (forall k :: 0 <= k < |p.enWords| ==> p.enWords[k] != [] && AllInAlphabet(English, p.enWords[k]))
  }

  /** The shape of every entry: a key word paired with a non-empty `a-z`
      word. */
  predicate IsEntryShape(item: VocabularyItem) {
    IsKeyWord(item.spanish) && item.english != [] && AllInAlphabet(English, item.english)
  }

  lemma ReadPositionWellFormed(spLine: string, enLine: string)
    ensures WellFormed(ReadPosition(spLine, enLine))
  {
    FindWordsTokens(Spanish, LowerString(Strip(spLine)));
    FindWordsTokens(English, LowerString(Strip(enLine)));
  }

  lemma OffersShape(ps: seq<Position>, item: VocabularyItem)
    requires forall j :: 0 <= j < |ps| ==> WellFormed(ps[j])
    requires item in Offers(ps)
    ensures IsEntryShape(item)
  {
    OffersMembership(ps, item);
    var j, i :| 0 <= j < |ps| && PositionOffersAt(ps[j], i, item);
    assert WellFormed(ps[j]);
  }

  /** Every glossary entry pairs a key word (longer than two letters, made
      of `a-z` and `áéíóúñ`) with a non-empty `a-z` word. */
  lemma VocabularyShape(spanishText: string, englishText: string)
    ensures forall k :: 0 <= k < |Vocabulary(spanishText, englishText)| ==>
              IsEntryShape(Vocabulary(spanishText, englishText)[k])
  {
    var spLines := Split(spanishText, '\n');
    var enLines := Split(englishText, '\n');
    var ps := ZipPositions(spLines, enLines);
    forall j | 0 <= j < |ps| ensures WellFormed(ps[j]) {
      ZipPositionsIndex(spLines, enLines, j);
      ReadPositionWellFormed(spLines[j], enLines[j]);
    }
    var vocab := Vocabulary(spanishText, englishText);
    forall k | 0 <= k < |vocab| ensures IsEntryShape(vocab[k]) {
      assert vocab[k] == FirstWins(Offers(ps))[k];
      OffersShape(ps, vocab[k]);
    }
  }

  /** Every glossary entry is offered by some line pair below the shorter
      line count, and it is the first offer of its Spanish word. */
  lemma VocabularyEntryOrigin(spanishText: string, englishText: string, k: nat)
    requires k < |Vocabulary(spanishText, englishText)|
    ensures var spLines := Split(spanishText, '\n');
            var enLines := Split(englishText, '\n');
            exists j, i :: 0 <= j < |spLines| && j < |enLines|
                           && OfferedAt(spLines[j], enLines[j], i, Vocabulary(spanishText, englishText)[k])
    ensures IsFirstOffer(AllOffers(spanishText, englishText), Vocabulary(spanishText, englishText)[k])
  {
    var offers := AllOffers(spanishText, englishText);
    var entry := Vocabulary(spanishText, englishText)[k];
    assert entry == FirstWins(offers)[k];
    AllOffersMembership(spanishText, englishText, entry);
    FirstWinsIsFirstOffer(offers);
  }

  /** Every offered word is a key of the map, and of the glossary when the
      map has no more than thirty entries (with `AllOffersMembership`: every
      word some line pair offers). */
  lemma OfferedWordIsKey(spanishText: string, englishText: string, item: VocabularyItem)
    requires item in AllOffers(spanishText, englishText)
    ensures HasKey(FirstWins(AllOffers(spanishText, englishText)), item.spanish)
    ensures |FirstWins(AllOffers(spanishText, englishText))| <= MaxItems ==>
              HasKey(Vocabulary(spanishText, englishText), item.spanish)
  {
    var offers := AllOffers(spanishText, englishText);
    var m :| 0 <= m < |offers| && offers[m] == item;
    assert HasKey(offers, item.spanish);
    FirstWinsKeys(offers, item.spanish);
    var dict := FirstWins(offers);
    if |dict| <= MaxItems {
      assert Vocabulary(spanishText, englishText) == dict;
    }
  }

  /** Lines appended to both texts never overwrite or reorder an entry:
      the old glossary is a prefix of the new one. */
  lemma AppendedLinesNeverOverwrite(spanishText: string, englishText: string, moreSpanish: string, moreEnglish: string)
    ensures Vocabulary(spanishText, englishText)
            <= Vocabulary(spanishText + "\n" + moreSpanish, englishText + "\n" + moreEnglish)
  {
    var a, b := Split(spanishText, '\n'), Split(englishText, '\n');
    var a', b' := Split(moreSpanish, '\n'), Split(moreEnglish, '\n');
    SplitAppend(spanishText, moreSpanish, '\n');
    SplitAppend(englishText, moreEnglish, '\n');
    ZipPositionsPrefix(a, a', b, b');
    OffersPrefix(ZipPositions(a, b), ZipPositions(a + a', b + b'));
    OffersPrefixVocabulary(spanishText, englishText,
                           spanishText + "\n" + moreSpanish, englishText + "\n" + moreEnglish);
  }

  /** When the offers of one pair of texts begin with the offers of
      another, so does the glossary. */
  lemma OffersPrefixVocabulary(spanishText: string, englishText: string, spanishText': string, englishText': string)
    requires AllOffers(spanishText, englishText) <= AllOffers(spanishText', englishText')
    ensures Vocabulary(spanishText, englishText) <= Vocabulary(spanishText', englishText')
  {
    var offers, offers' := AllOffers(spanishText, englishText), AllOffers(spanishText', englishText');
    var rest := offers'[|offers|..];
    assert offers' == offers + rest;
    FirstWinsExtends(offers, rest);
    var d, d' := FirstWins(offers), FirstWins(offers');
    assert Vocabulary(spanishText, englishText) == d[..Min(MaxItems, |d|)];
    assert Vocabulary(spanishText', englishText') == d'[..Min(MaxItems, |d'|)];
  }

  /** Zipping longer line lists extends the zip of the shorter ones,
      whatever the two lengths. */
  lemma {:induction false} ZipPositionsPrefix(a: seq<string>, a': seq<string>, b: seq<string>, b': seq<string>)
    ensures ZipPositions(a, b) <= ZipPositions(a + a', b + b')
    decreases |a|
  {
    if a != [] && b != [] {
      assert (a + a')[1..] == a[1..] + a';
      assert (b + b')[1..] == b[1..] + b';
      assert (a + a')[0] == a[0] && (b + b')[0] == b[0];
      ZipPositionsPrefix(a[1..], a', b[1..], b');
    }
  }

  /** More positions only add offers after the old ones. */
  lemma OffersPrefix(ps: seq<Position>, qs: seq<Position>)
    requires ps <= qs
    ensures Offers(ps) <= Offers(qs)
  {
    assert qs == ps + qs[|ps|..];
    OffersAppend(ps, qs[|ps|..]);
  }

  /** Lines of the Spanish text beyond the English line count are ignored. */
  lemma SurplusLinesIgnored(spanishText: string, extra: string, englishText: string)
    requires |Split(englishText, '\n')| <= |Split(spanishText, '\n')|
    ensures Vocabulary(spanishText + "\n" + extra, englishText) == Vocabulary(spanishText, englishText)
  {
    SplitAppend(spanishText, extra, '\n');
    ZipPositionsSurplus(Split(spanishText, '\n'), Split(extra, '\n'), Split(englishText, '\n'));
    assert AllOffers(spanishText + "\n" + extra, englishText) == AllOffers(spanishText, englishText);
  }

  /** A blank Spanish line heading the remaining lines makes its position
      skipped: the English line beside it is consumed and offers nothing. */
  lemma SkippedFront(blank: string, englishLine: string, spLines: seq<string>, enLines: seq<string>)
    requires AllSpace(blank)
    ensures Offers(ZipPositions([blank] + spLines, [englishLine] + enLines)) == Offers(ZipPositions(spLines, enLines))
  {
    ZipPositionsAppend([blank], spLines, [englishLine], enLines);
    BlankLineIsSkipped(blank, englishLine);
    assert ZipPositions([blank], [englishLine]) == [Skipped];
    OffersAppend([Skipped], ZipPositions(spLines, enLines));
    assert Offers([Skipped]) == [];
  }

  /** A blank Spanish line that opens the text still occupies a slot: it
      consumes the first English line, which then pairs with nothing. */
  lemma LeadingBlankLineKeepsSlot(blank: string, spanishText: string, englishLine: string, englishText: string)
    requires '\n' !in blank && AllSpace(blank)
    requires '\n' !in englishLine
    ensures Vocabulary(blank + "\n" + spanishText, englishLine + "\n" + englishText)
            == Vocabulary(spanishText, englishText)
  {
    SplitAppend(blank, spanishText, '\n');
    SplitAppend(englishLine, englishText, '\n');
    SplitNoSeparator(blank, '\n');
    SplitNoSeparator(englishLine, '\n');
    SkippedFront(blank, englishLine, Split(spanishText, '\n'), Split(englishText, '\n'));
    assert AllOffers(blank + "\n" + spanishText, englishLine + "\n" + englishText) == AllOffers(spanishText, englishText);
  }

  /** A blank Spanish line after the first `|Split(spanishBefore, '\n')|`
      lines still occupies a slot: it consumes the English line beside it,
      which then pairs with nothing, while the lines before and after are
      paired as if both the blank line and that English line were absent. */
  lemma BlankLineKeepsSlot(spanishBefore: string, blank: string, spanishAfter: string,
                           englishBefore: string, englishLine: string, englishAfter: string)
    requires '\n' !in blank && AllSpace(blank)
    requires '\n' !in englishLine
    requires |Split(spanishBefore, '\n')| == |Split(englishBefore, '\n')|
    ensures Vocabulary(spanishBefore + "\n" + (blank + "\n" + spanishAfter),
                       englishBefore + "\n" + (englishLine + "\n" + englishAfter))
            == Vocabulary(spanishBefore + "\n" + spanishAfter, englishBefore + "\n" + englishAfter)
  {
    var sb, sa := Split(spanishBefore, '\n'), Split(spanishAfter, '\n');
    var eb, ea := Split(englishBefore, '\n'), Split(englishAfter, '\n');
    SplitAppend(blank, spanishAfter, '\n');
    SplitAppend(englishLine, englishAfter, '\n');
    SplitNoSeparator(blank, '\n');
    SplitNoSeparator(englishLine, '\n');
    SplitAppend(spanishBefore, blank + "\n" + spanishAfter, '\n');
    SplitAppend(englishBefore, englishLine + "\n" + englishAfter, '\n');
    SplitAppend(spanishBefore, spanishAfter, '\n');
    SplitAppend(englishBefore, englishAfter, '\n');
    MiddleBlankOffers(sb, blank, sa, eb, englishLine, ea);
    assert AllOffers(spanishBefore + "\n" + (blank + "\n" + spanishAfter),
                     englishBefore + "\n" + (englishLine + "\n" + englishAfter))
           == AllOffers(spanishBefore + "\n" + spanishAfter, englishBefore + "\n" + englishAfter);
  }

  /** On line lists: a blank Spanish line after equally many lines on both
      sides removes its position from the offers. */
  lemma MiddleBlankOffers(sb: seq<string>, blank: string, sa: seq<string>,
                          eb: seq<string>, englishLine: string, ea: seq<string>)
    requires AllSpace(blank)
    requires |sb| == |eb|
    ensures Offers(ZipPositions(sb + ([blank] + sa), eb + ([englishLine] + ea)))
            == Offers(ZipPositions(sb + sa, eb + ea))
  {
    ZipPositionsAppend(sb, [blank] + sa, eb, [englishLine] + ea);
    ZipPositionsAppend(sb, sa, eb, ea);
    SkippedFront(blank, englishLine, sa, ea);
    OffersAppend(ZipPositions(sb, eb), ZipPositions([blank] + sa, [englishLine] + ea));
    OffersAppend(ZipPositions(sb, eb), ZipPositions(sa, ea));
  }
}
